=== FILE: README.md ===
# Ball Map court view — a Dafny model

This project models the padel "Ball Map" widget of a match-report dashboard.
The widget draws the shots of a match on a half court, or a heat map of where a
player stood, and switches between the two with animated transitions. The model
covers:

- the data model: shots with six types and two results, the two main modes and
  the heat-map views (module `Types`);
- the constant data: animation delays, the filter buttons and the 100 sample
  shots (`Constants`);
- the heat-map tables and the value-to-opacity mapping (`Utils`);
- the court drawing: region rectangles, overlays, percentage labels, shot
  markers with their staggered reveal, and layer visibility (`Court`, with
  geometry in `Svg`);
- the legend: the shot count line, the coverage caption and the panel
  visibility (`Legend`, with decimal rendering in `Decimal`);
- the component state: the shot filter, the mode and filter transitions as an
  event-driven state machine in which timers are explicit `Fire` events, and the
  props it hands to the court and the legend (`BallMap`);
- a corrected transition in which the last request wins (`LastRequest`);
- the older single-file Ball Map, with its type-and-result filter, toggle
  buttons, team markers and player captions (`Legacy`).

Coordinates are exact `real`s. Time is not modelled: a scheduled callback is an
entry in a pending list until a `Fire(k)` event runs it. Pending callbacks may
fire in any order, which covers every schedule that real delays could produce.
A `Fire` naming no pending entry changes nothing.

The filter value is a `string`, as in the component, so an id that names no
type is a possible input: it keeps no shot. The heat-map view has a fourth case,
`Heatmap`, because the position controls emit the value `'heatmap'`
(`src/components/BallMap/components/PlayerPositionControls.tsx:152`) although
the declared union lists only three views. For that view the table is the 2-row
front/back table, the court draws no region and the legend says "2-row".

A user clicking quickly expects the last click to win. The guard compares each
request with the committed `mainMode` instead, so a click back to the old mode
before the switch is committed is dropped. A click made after the commit but
before the enter timer fires is not dropped, but that enter timer then ends the
new transition early. The model follows the code in both cases, and a corrected
transition is proved separately (see Findings).

## Model

| member | source | states |
|---|---|---|
| Types.TypeId | src/components/BallMap/types.ts:5-11 | each shot type's string is non-empty and differs from the catch-all filter "all" |
| Types.TypeIdInjective | src/components/BallMap/types.ts:5-11 | two types have the same id exactly when they are the same type, so comparing ids compares types |
| Types.ShotTypeOrderComplete | src/components/BallMap/types.ts:5-11 | the ordered list of types contains every type, with no repeats |
| Types.ShownForExclusive | src/components/BallMap/index.tsx:102-108 | at most one mode's widgets are shown; none while a mode transition runs; the displayed mode's widgets are shown otherwise |
| Constants.DelaysPositive | src/components/BallMap/constants.ts:4-10 | every animation delay is positive, and the marker stagger is 50 ms |
| Constants.ShotTypesFollowUnion | src/components/BallMap/constants.ts:12-19 | the six filter buttons carry the six type ids in the order of the type union; the ids are pairwise distinct and none is "all" |
| Constants.SampleCount | src/components/BallMap/constants.ts:28-144 | filtering the sample by shot category counts run by run: each run of one type and result passes whole or not at all |
| Constants.SampleTypeCounts | src/components/BallMap/constants.ts:28-144 | the sample has 100 shots: 27 forehands, 14 backhands, 19 forehand volleys, 19 backhand volleys, 15 serves and 6 overheads |
| Constants.SampleResults | src/components/BallMap/constants.ts:28-144 | 17 sample shots are interceptions and 83 are ground bounces |
| Constants.ServesAndOverheadsBounce | src/components/BallMap/constants.ts:120-143 | every serve and every overhead in the sample is a ground bounce |
| Constants.SampleRanges | src/components/BallMap/constants.ts:28-144 | every sample shot has x in [14, 89] and y in [0, 70] |
| Constants.SampleRangeReached | src/components/BallMap/constants.ts:54-135 | each of the four range bounds is reached by a named sample shot, so the range is tight |
| Constants.SampleRepeatsAShot | src/components/BallMap/constants.ts:32-35 | the third and sixth sample shots are the same forehand interception at (55, 20) |
| Utils.HeatmapData | src/components/BallMap/utils.ts:14-39 | the table has 9 rows for zones, 3 for sides and 2 for every other view; every value is a percentage in [0, 100] |
| Utils.RegionNames | src/components/BallMap/utils.ts:16-31 | the zone table is row-major: row i names row i/3 (net, transition, back) and column i%3 (left, middle, right); the sides table names the columns left to right |
| Utils.ZoneTotals | src/components/BallMap/utils.ts:16-26 | the zone values are 15, 25, 10, 20, 35, 15, 30, 40, 25; they are independent percentages summing to 215, not to 100 |
| Utils.SideAndFrontBackTotals | src/components/BallMap/utils.ts:28-37 | the column values 35, 45, 20 and the front/back values 35, 65 each sum to 100 |
| Utils.OtherViewsFallThrough | src/components/BallMap/utils.ts:33-37 | any view other than zones and sides, including the undeclared 'heatmap', gets the front/back table |
| Utils.OverlayAlpha | src/components/BallMap/utils.ts:7-9 | a percentage in [0, 100] gives an alpha in [0.2, 0.7]; the percentage can be read back from the alpha |
| Utils.OverlayAlphaMonotone | src/components/BallMap/utils.ts:8 | a higher percentage gives a darker overlay and a lower one a lighter overlay, both ways, for both <= and < |
| Svg.CrossAt | src/components/BallMap/components/Court.tsx:339-348 | the X marker's two strokes both have the shot as midpoint, with spans (+2a, +2a) and (+2a, -2a) |
| Court.RegionRects | src/components/BallMap/components/Court.tsx:16-150 | each drawn view has one rectangle per row of its table (9, 3 or 2); the undeclared 'heatmap' view draws none |
| Court.ZoneGrid | src/components/BallMap/components/Court.tsx:21-87 | zone i is the 26.67 x 25 cell in column i%3 and row i/3, with the same horizontal extent as column i%3 |
| Court.RegionsInsideOutline | src/components/BallMap/components/Court.tsx:16-147 | every region rectangle of every view lies inside the court outline [10, 90] x [0, 75] |
| Court.RowsSpanOutline | src/components/BallMap/components/Court.tsx:21-87 | the three zone rows meet edge to edge and span exactly the outline's height |
| Court.ColumnsOverlapByOneHundredth | src/components/BallMap/components/Court.tsx:96-120 | the columns start at x = 10 and end at x = 90; left and middle meet exactly, but middle and right overlap by 0.01 |
| Court.RegionsCoverOutline | src/components/BallMap/components/Court.tsx:16-147 | in each drawn view every point of the outline lies in some region rectangle |
| Court.FrontBackTilesOutline | src/components/BallMap/components/Court.tsx:129-144 | the front and back bands cover the outline and share no area, so they tile it |
| Court.SideOverlaps | src/components/BallMap/components/Court.tsx:96-120 | two distinct columns share area exactly when they are the middle and the right one |
| Court.ZoneOverlaps | src/components/BallMap/components/Court.tsx:21-87 | two distinct zones share area exactly when they are the middle and right zones of one row |
| Court.LabelAnchor | src/components/BallMap/components/Court.tsx:152-240 | the anchor formulas of the three views put the label of row i strictly inside rectangle i |
| Court.LabelInsideItsRegion | src/components/BallMap/components/Court.tsx:152-240 | in each drawn view, the label of row i is printed strictly inside rectangle i, the one filled from that row |
| Court.Overlays | src/components/BallMap/components/Court.tsx:16-150 | rectangle i is filled from row i, and the row's value can be read back from the alpha; percentages give alphas in [0.2, 0.7]; a larger value never gets a lighter fill; the table must hold as many rows as the view reads |
| Court.Labels | src/components/BallMap/components/Court.tsx:152-240 | one label per table row, carrying that row's value at its anchor; no labels for an undeclared view |
| Court.ShotMarker | src/components/BallMap/components/Court.tsx:328-350 | the marker is a circle exactly for a ground bounce; it is centred on the shot and reaches 1.5 for a circle and 1 for an X; an X is the pair of strokes through (x-1, y-1)-(x+1, y+1) and (x-1, y+1)-(x+1, y-1) |
| Court.RevealDelay | src/components/BallMap/components/Court.tsx:319-323 | the delay is a multiple of the 50 ms stagger that gives the index back, or 0 for every marker during a filter transition |
| Court.RevealDelayIncreasing | src/components/BallMap/components/Court.tsx:319-323 | outside a filter transition a later marker starts strictly later; during one, all start at 0 |
| Court.ShotMarks | src/components/BallMap/components/Court.tsx:303-353 | one mark per shot, in order, with that shot's key and marker; mark i's delay is the reveal delay of index i, so delays strictly increase outside a filter transition and are all 0 during one; markers are revealed only once animated, in ball-hits mode, outside a filter transition |
| Court.SampleMarkerKeysCollide | src/components/BallMap/components/Court.tsx:305 | the marker key built from x, y, type and result is the same for the third and sixth sample shots, so keys are not unique |
| Court.MarkKeysUniqueIff | src/components/BallMap/components/Court.tsx:303-305 | the marker keys of a list are pairwise distinct exactly when no shot occurs twice in it |
| Court.IndexedKeysUnique | src/components/BallMap/components/Court.tsx:303-305 | keys that also carry the list index are pairwise distinct for every list, and their field part still determines the shot |
| Court.SampleInsideOutline | src/components/BallMap/components/Court.tsx:266-267 | every sample shot lands inside the court outline |
| Court.Render | src/components/BallMap/components/Court.tsx:284-364 | the heat-map layer shows exactly in player-position mode outside a transition, and the shot layer exactly in ball-hits mode outside one, never both; overlay i fills rectangle i with an alpha that reads back as row i's value; label i prints row i's value at anchor i, with no labels for 'heatmap'; mark i carries shot i's key and marker, the delay for index i and the shared reveal flag |
| Decimal.NatToString | src/components/BallMap/components/Legend.tsx:52 | a count renders as a non-empty string of decimal digits with no leading zero |
| Decimal.NatToStringRoundTrip | src/components/BallMap/components/Legend.tsx:52 | the rendered count reads back to the same number |
| Decimal.LeadingNumberOf | src/components/BallMap/components/Legend.tsx:52 | a rendered number followed by text that does not start with a digit reads back as that number |
| Legend.ShotCountText | src/components/BallMap/components/Legend.tsx:51-54 | the text is exactly the count's decimal digits, " shots shown" and, when a single type is selected, " (type only)": the digit prefix is the count's digits and reads back as the count, the length leaves no room for anything else, and the text ends in " only)" exactly when a single type is selected |
| Legend.ViewLabel | src/components/BallMap/components/Legend.tsx:71-75 | the number at the start of the layout name is the row count of the table for the same view |
| Legend.ViewLabelCountsRows | src/components/BallMap/components/Legend.tsx:71-75 | the number in the layout name (9-zone, 3-column, 2-row) is the row count of the table for the same view; a view gets the 2-row name exactly when it is neither zones nor sides |
| Legend.CoverageCaption | src/components/BallMap/components/Legend.tsx:70-77 | the number at the start of the caption is the row count of the table for the same view |
| Legend.CoverageTitle | src/components/BallMap/components/Legend.tsx:67-69 | the title is exactly "Player ", the player's decimal digits and " Court Coverage": the digit run after the prefix is the player's digits and reads back as the player, and the length leaves nothing in between |
| Legend.Render | src/components/BallMap/components/Legend.tsx:13-83 | the two panels are never both visible and both hide during a transition; the count line is exactly the count text for the number of shots and the displayed filter, so it reads back as that number and names a single type; the caption is the view's caption, whose number is the table's row count; the title is exactly the coverage title of the selected player |
| BallMap.InitialState | src/components/BallMap/index.tsx:14-37 | the component starts in ball-hits mode with every type, the zone view and no transition, keeping the invariant; its only timer is the shot reveal, and running it reveals the shots and leaves nothing pending |
| BallMap.Step | src/components/BallMap/index.tsx:40-107 | a mode click leaves the filter, view and reveal alone; a filter click leaves the mode, view and reveal alone; a view click changes only the view; clicks add at most one timer and drop none; a timer event never changes the view, and one naming no pending timer changes nothing |
| BallMap.HandleModeChange | src/components/BallMap/index.tsx:40-55 | a request for the current mainMode changes nothing; any other request starts the transition and schedules one exit timer for it, and changes nothing else |
| BallMap.HandleFilterChange | src/components/BallMap/index.tsx:58-73 | the same guard-then-exit-timer pattern on the shot filter |
| BallMap.FireTimer | src/components/BallMap/index.tsx:31-73 | the fired timer leaves the queue; an exit timer sets both the guarded and the displayed value to its target, keeps the transition flag and schedules the enter timer; an enter timer ends its transition and keeps the values; the reveal timer starts the shot animation and nothing else touches it; the other channel and the view are unchanged |
| BallMap.StepConsistent | src/components/BallMap/index.tsx:40-73 | every event keeps the invariant: guarded and displayed values agree, a running transition has a timer of its own pending, and the shots are revealed or about to be |
| BallMap.FireConsistent | src/components/BallMap/index.tsx:46-72 | running any pending timer keeps that invariant |
| BallMap.RunConsistent | src/components/BallMap/index.tsx:40-73 | any sequence of events keeps the invariant |
| BallMap.ReachableStates | src/components/BallMap/index.tsx:14-73 | in every reachable state mainMode equals displayMode and selectedShot equals displayShot; once no timer is pending, no transition runs and the shots are revealed |
| BallMap.StaleModeGuardDropsLastRequest | src/components/BallMap/index.tsx:40-55 | a click back to ball hits before the exit timer fires is ignored, and once every timer has run player position is shown |
| BallMap.EarlyEnterShowsStaleMode | src/components/BallMap/index.tsx:46-54 | after the switch to player position is committed, a click on ball hits before that switch's enter timer fires leaves player position shown, with no transition running, while the ball-hits exit timer is still pending |
| BallMap.StaleFilterGuardDropsLastRequest | src/components/BallMap/index.tsx:58-73 | choosing serves and then "all" before the exit timer fires leaves the serve filter in place |
| BallMap.FilterShots | src/components/BallMap/index.tsx:76-79 | "all" keeps the list unchanged; a type id keeps a shot exactly when it has that type; a value that names no type keeps nothing |
| BallMap.FilterShotsStable | src/components/BallMap/index.tsx:76-79 | the filter of a concatenation is the concatenation of the filters, so order is kept |
| BallMap.FilterShotsByType | src/components/BallMap/index.tsx:76-79 | filtering by a type's id is filtering by that type; on the sample that keeps 27, 14, 19, 19, 15 or 6 shots, and "all" keeps 100 |
| BallMap.CourtPropsOf | src/components/BallMap/index.tsx:112-120 | the court gets the filtered sample, the displayed mode, both transition flags, the reveal flag and the table of the current view, which always has as many rows as the view's drawing reads |
| BallMap.LegendPropsOf | src/components/BallMap/index.tsx:122-129 | the legend gets the same filtered shots, view, mode and transition flag as the court, the displayed filter and the selected player |
| BallMap.ControlPanels | src/components/BallMap/index.tsx:97-109 | at most one control panel is shown, neither during a mode transition, and each exactly for its mode otherwise |
| BallMap.Render | src/components/BallMap/index.tsx:84-131 | the shot layer shows exactly in ball-hits mode and the heat-map layer exactly in player-position mode, neither during a mode transition; the court draws one marker per shot of the filtered sample, the legend's count line is the count text for that list and the displayed filter, and its count equals the markers drawn; the caption's number is the table's row count; court layers, legend panels and control panels show and hide together |
| LastRequest.HandleRequest | src/components/BallMap/index.tsx:40-55 | corrected guard: every request becomes the target; a request for the current target changes nothing; a new target starts the transition and appends one exit timer, leaving both values and the queue otherwise alone |
| LastRequest.FireTimer | src/components/BallMap/index.tsx:46-54 | corrected timers: the fired timer leaves the queue and an exit adds an enter timer; an exit commits the latest target to both values; an enter keeps the values and leaves the transition running exactly when an exit timer is still pending |
| LastRequest.StepFollows | src/components/BallMap/index.tsx:40-55 | every event keeps the corrected invariant and sets the target to the request's value |
| LastRequest.LastRequestWins | src/components/BallMap/index.tsx:40-55 | after any sequence of events the target is the last request; once no timer is pending the displayed value is the last request |
| LastRequest.SettledShowsLatest | src/components/BallMap/index.tsx:46-54 | with the corrected timers, whenever no transition is running the value on screen is the last request |
| LastRequest.ClickBackWins | src/components/BallMap/index.tsx:40-55 | with the corrected guard, clicking player position and then ball hits ends on ball hits, whatever order the timers fire in |
| Legacy.FilteredShots | src/components/BallMap.tsx:48-52 | a shot is kept exactly when its type passes the selection and its result is the hit/bounce mode |
| Legacy.FilterIsTypeThenResult | src/components/BallMap.tsx:48-52 | the combined filter equals the type filter then the result filter, and the reverse order, so order is kept |
| Legacy.SampleHitMode | src/components/BallMap.tsx:28-37 | with every type selected, hit mode shows the first seven sample shots |
| Legacy.SampleBounceMode | src/components/BallMap.tsx:28-37 | with every type selected, bounce mode shows only the forehand volley at (90, 68) |
| Legacy.ToggleSelect | src/components/BallMap.tsx:103-104 | a click gives "all" exactly when the button's type was selected, and otherwise selects that type |
| Legacy.ToggleTwice | src/components/BallMap.tsx:103-104 | two clicks on one button restore the selection exactly when it was "all" or that button's type |
| Legacy.TeamMarker | src/components/BallMap.tsx:222-251 | the marker is a circle exactly for your team's shots; it is centred on the shot and reaches 2 either way |
| Legacy.AnimationDelay | src/components/BallMap.tsx:220 | the delay is a multiple of 50 ms that gives the index back |
| Legacy.AnimationDelayIncreasing | src/components/BallMap.tsx:220 | a later shot always starts later |
| Legacy.PlayerLabel | src/components/BallMap.tsx:92 | the caption is "You" exactly for the selected player; otherwise it is exactly "P" followed by the id's decimal digits, which read back as the id |

## Left out

- JSX structure, Tailwind classes, colours, stroke widths, icons and CSS animation curves: presentation only.
- The rgba string of `getOverlayColor`: only its alpha value is modelled, as an exact real; floating-point rounding of the alpha and of coordinates such as 26.67 is not modelled.
- Real timer durations and React re-rendering: a timer is a pending entry that fires on an explicit event, so the delay constants appear only as data.
- The cleanup of the reveal timer when the `delay` prop changes (index.tsx:31-37): the prop is fixed for the component's lifetime in the model, so the reveal timer is scheduled once.
- `addFadeInStyles` (utils.ts:44-62): a DOM side effect.
- The `players` constant and the `PlayerSelector`, `Header`, `BallHitsControls` and `PlayerPositionControls` components: they are buttons that raise the requests modelled as events. The one fact taken from them is that the position controls emit `'heatmap'`.
- The hidden control panels ignore clicks (`pointer-events-none`, src/components/BallMap/components/BallHitsControls.tsx:15-17 and PlayerPositionControls.tsx:13-15), but the model accepts filter and view requests in any state. This over-approximates the inputs, so every invariant proved for all event sequences still holds for the ones a user can produce.
- The rest of the dashboard (charts, statistics cards, routing, the 3-D scene): it is outside the Ball Map.
- Court.Render: requires that the table has as many rows as the view reads. The component meets this for every view (BallMap.CourtPropsOf). A table that is too short would make the source fail at run time, and that failure is not modelled.

## Findings

| source | as written | input that shows it | evidently intended | confidence | as-written member | corrected member |
|---|---|---|---|---|---|---|
| src/components/BallMap/index.tsx:41 | the mode guard compares a request with `mainMode`, which is only updated when the exit timer fires | from ball hits, click player position and then ball hits again within 300 ms: the second click is ignored and player position stays on screen | the last request wins: the final mode is ball hits | not executed; medium | BallMap.StaleModeGuardDropsLastRequest | LastRequest.LastRequestWins |
| src/components/BallMap/index.tsx:59 | the filter guard compares with `selectedShot`, which is only updated when the exit timer fires | from "all", choose serves and then "all" again within 200 ms: the second choice is ignored and only serves stay shown | the last choice wins: every shot is shown | not executed; medium | BallMap.StaleFilterGuardDropsLastRequest | LastRequest.LastRequestWins |
| src/components/BallMap/index.tsx:52 | the enter timer of a mode switch clears `isTransitioning` unconditionally | from ball hits, click player position; about 320 ms later, after the switch is committed, click ball hits: at 350 ms the first enter timer clears the flag, and player position shows with no transition until about 620 ms | the transition runs until the last request is on screen | not executed; medium | BallMap.EarlyEnterShowsStaleMode | LastRequest.SettledShowsLatest |
| src/components/BallMap/components/Court.tsx:305 | each marker's key is built from x, y, type and result only, but React needs sibling keys to be unique | the sample repeats the forehand interception at (55, 20) at constants.ts:32 and 35, so two markers get the same key | every marker gets a unique key | not executed; medium | Court.SampleMarkerKeysCollide | Court.IndexedKeysUnique |

=== FILE: ballmap.dfy ===
/** The Ball Map component: its view state, the two-step mode and filter
    transitions driven by timer events, the shot filter, and what it hands to
    the court and the legend. Time is not modelled: a timer is a pending entry
    until a `Fire` event runs it, and pending timers may fire in any order. */
module BallMap {
  import opened Types
  import opened Seqs
  import opened Utils
  import opened Constants
  import Court
  import Legend
  import Decimal

  /** One two-step transition channel: the value the handler's guard compares
      against (`mainMode` / `selectedShot`), the value on screen (`displayMode`
      / `displayShot`) and whether the transition runs (`isTransitioning` /
      `isFilterTransitioning`). */
  datatype Channel<T> = Channel(selected: T, displayed: T, transitioning: bool)

  /** A scheduled callback. An exit timer carries the value its request asked
      for; an enter timer ends the transition. */
  datatype Timer =
    | ModeExit(mode: MainMode)
    | ModeEnter
    | FilterExit(filter: string)
    | FilterEnter
    | RevealShots
  {
    predicate ForMode() {
      ModeExit? || ModeEnter?
    }

    predicate ForFilter() {
      FilterExit? || FilterEnter?
    }
  }

  datatype State = State(
    mode: Channel<MainMode>,
    filter: Channel<string>,
    heatmapView: HeatmapView,
    animatedShots: bool,
    pending: seq<Timer>)

  /** What can happen: a click on a mode, a filter button or a view button, or
      the `index`-th pending timer firing. */
  datatype Event =
    | RequestMode(mode: MainMode)
    | RequestFilter(filter: string)
    | ChangeView(view: HeatmapView)
    | Fire(index: nat)

  /** On mount: ball-hits mode, every type, the zone view, and the shot reveal
      timer scheduled. */
  const Init: State := State(
    Channel(BallHits, BallHits, false),
    Channel(AllShots, AllShots, false),
    Zones,
    false,
    [RevealShots])

  /** The component mounts in a settled state that keeps the invariant below;
      its only timer is the shot reveal, and running it reveals the shots and
      leaves nothing pending. */
  lemma InitialState()
    ensures Init.mode.displayed == BallHits && Init.filter.displayed == AllShots && Init.heatmapView == Zones
    ensures !Init.mode.transitioning && !Init.filter.transitioning && !Init.animatedShots
    ensures Consistent(Init)
    ensures Step(Init, Fire(0)).animatedShots && Step(Init, Fire(0)).pending == []
    ensures Step(Init, Fire(0)) == Init.(animatedShots := true, pending := [])
  {
  }

  /** A mode click. A click on the current `mainMode` changes nothing;
      otherwise the mode transition starts and its exit timer is scheduled, and
      nothing else changes yet. */
  function HandleModeChange(s: State, m: MainMode): (t: State)
    ensures m == s.mode.selected ==> t == s
    ensures m != s.mode.selected ==>
      t.mode.transitioning && t.pending == s.pending + [ModeExit(m)]
      && t.mode.selected == s.mode.selected && t.mode.displayed == s.mode.displayed
      && t.filter == s.filter && t.heatmapView == s.heatmapView && t.animatedShots == s.animatedShots
  {
    if m == s.mode.selected then s
    else s.(mode := s.mode.(transitioning := true), pending := s.pending + [ModeExit(m)])
  }

  /** A filter click, the same guard-then-two-timers pattern on the filter. */
  function HandleFilterChange(s: State, f: string): (t: State)
    ensures f == s.filter.selected ==> t == s
    ensures f != s.filter.selected ==>
      t.filter.transitioning && t.pending == s.pending + [FilterExit(f)]
      && t.filter.selected == s.filter.selected && t.filter.displayed == s.filter.displayed
      && t.mode == s.mode && t.heatmapView == s.heatmapView && t.animatedShots == s.animatedShots
  {
    if f == s.filter.selected then s
    else s.(filter := s.filter.(transitioning := true), pending := s.pending + [FilterExit(f)])
  }

  /** Running the `k`-th pending timer: it leaves the queue; an exit timer sets
      both the guarded and the displayed value to its target and schedules the
      enter timer; an enter timer ends the transition; the reveal timer starts
      the shot animation. */
  function FireTimer(s: State, k: nat): (t: State)
    requires k < |s.pending|
    ensures multiset(t.pending) + multiset{s.pending[k]} ==
      multiset(s.pending) + (match s.pending[k]
                              case ModeExit(_) => multiset{ModeEnter}
                              case FilterExit(_) => multiset{FilterEnter}
                              case _ => multiset{})
    ensures s.pending[k].ModeExit? ==> t.mode.selected == t.mode.displayed == s.pending[k].mode
    ensures s.pending[k].FilterExit? ==> t.filter.selected == t.filter.displayed == s.pending[k].filter
    ensures s.pending[k].ModeEnter? ==> !t.mode.transitioning
    ensures s.pending[k].FilterEnter? ==> !t.filter.transitioning
    ensures s.pending[k].RevealShots? ==> t.animatedShots
    ensures s.pending[k].ModeExit? ==> t.mode.transitioning == s.mode.transitioning
    ensures s.pending[k].FilterExit? ==> t.filter.transitioning == s.filter.transitioning
    ensures s.pending[k].ModeEnter? ==> t.mode.selected == s.mode.selected && t.mode.displayed == s.mode.displayed
    ensures s.pending[k].FilterEnter? ==> t.filter.selected == s.filter.selected && t.filter.displayed == s.filter.displayed
    ensures !s.pending[k].ForMode() ==> t.mode == s.mode
    ensures !s.pending[k].ForFilter() ==> t.filter == s.filter
    ensures !s.pending[k].RevealShots? ==> t.animatedShots == s.animatedShots
    ensures t.heatmapView == s.heatmapView
  {
    var rest := RemoveAt(s.pending, k);
    assert multiset(rest) + multiset{s.pending[k]} == multiset(s.pending);
    match s.pending[k]
    case ModeExit(m) =>
      s.(mode := s.mode.(selected := m, displayed := m), pending := rest + [ModeEnter])
    case ModeEnter =>
      s.(mode := s.mode.(transitioning := false), pending := rest)
    case FilterExit(f) =>
      s.(filter := s.filter.(selected := f, displayed := f), pending := rest + [FilterEnter])
    case FilterEnter =>
      s.(filter := s.filter.(transitioning := false), pending := rest)
    case RevealShots =>
      s.(animatedShots := true, pending := rest)
  }

  /** One event. A view click takes effect at once; a `Fire` that names no
      pending timer changes nothing. */
  function Step(s: State, e: Event): (t: State)
    ensures e.RequestMode? ==> t.filter == s.filter && t.heatmapView == s.heatmapView && t.animatedShots == s.animatedShots
    ensures e.RequestFilter? ==> t.mode == s.mode && t.heatmapView == s.heatmapView && t.animatedShots == s.animatedShots
    ensures e.ChangeView? ==>
      (t.heatmapView == e.view && t.mode == s.mode && t.filter == s.filter
       && t.animatedShots == s.animatedShots && t.pending == s.pending)
    ensures !e.Fire? ==> s.pending <= t.pending && |t.pending| <= |s.pending| + 1
    ensures e.Fire? ==> t.heatmapView == s.heatmapView && |t.pending| <= |s.pending|
    ensures e.Fire? && e.index >= |s.pending| ==> t == s
  {
    match e
    case RequestMode(m) => HandleModeChange(s, m)
    case RequestFilter(f) => HandleFilterChange(s, f)
    case ChangeView(v) => s.(heatmapView := v)
    case Fire(k) => if k < |s.pending| then FireTimer(s, k) else s
  }

  function Run(s: State, events: seq<Event>): State
    decreases |events|
  {
    if |events| == 0 then s else Run(Step(s, events[0]), events[1..])
  }

  /** Running a non-empty list is one step, then the rest. */
  lemma RunCons(s: State, e: Event, rest: seq<Event>)
    ensures Run(s, [e] + rest) == Run(Step(s, e), rest)
  {
    assert ([e] + rest)[1..] == rest;
  }

  lemma RunOne(s: State, e: Event)
    ensures Run(s, [e]) == Step(s, e)
  {
    RunCons(s, e, []);
    assert [e] + [] == [e];
  }

  /** Some timer of the given channel is pending. */
  ghost predicate ModeTimerPending(pending: seq<Timer>) {
    exists t :: t in pending && t.ForMode()
  }

  ghost predicate FilterTimerPending(pending: seq<Timer>) {
    exists t :: t in pending && t.ForFilter()
  }

  /** The state invariant: each guarded value equals its displayed value (they
      are only ever set together), a running transition still has a timer of
      its own pending, and the shots are revealed or about to be. */
  ghost predicate Consistent(s: State) {
    && s.mode.selected == s.mode.displayed
    && s.filter.selected == s.filter.displayed
    && (s.mode.transitioning ==> ModeTimerPending(s.pending))
    && (s.filter.transitioning ==> FilterTimerPending(s.pending))
    && (s.animatedShots || RevealShots in s.pending)
  }

  /** A timer other than the fired one is still pending afterwards. */
  lemma OtherTimerStays(s: State, k: nat, t: Timer)
    requires k < |s.pending| && t in s.pending && t != s.pending[k]
    ensures t in FireTimer(s, k).pending
  {
    var r := FireTimer(s, k).pending;
    assert multiset(s.pending)[t] > 0;
    assert multiset(r)[t] >= multiset(s.pending)[t];
  }

  /** Every event keeps the invariant. */
  lemma StepConsistent(s: State, e: Event)
    requires Consistent(s)
    ensures Consistent(Step(s, e))
  {
    var t := Step(s, e);
    match e
    case RequestMode(m) =>
      if m != s.mode.selected {
        assert ModeExit(m) in t.pending;
        assert s.filter.transitioning ==> FilterTimerPending(t.pending) by {
          if s.filter.transitioning {
            var w :| w in s.pending && w.ForFilter();
            assert w in t.pending;
          }
        }
      }
    case RequestFilter(f) =>
      if f != s.filter.selected {
        assert FilterExit(f) in t.pending;
        assert s.mode.transitioning ==> ModeTimerPending(t.pending) by {
          if s.mode.transitioning {
            var w :| w in s.pending && w.ForMode();
            assert w in t.pending;
          }
        }
      }
    case ChangeView(_) =>
    case Fire(k) =>
      if k < |s.pending| {
        FireConsistent(s, k);
      }
  }

  lemma FireConsistent(s: State, k: nat)
    requires Consistent(s) && k < |s.pending|
    ensures Consistent(FireTimer(s, k))
  {
    var fired := s.pending[k];
    var t := FireTimer(s, k);
    if t.mode.transitioning {
      if fired.ModeExit? {
        assert multiset(t.pending)[ModeEnter] > 0;
        assert ModeEnter in t.pending;
      } else {
        var w :| w in s.pending && w.ForMode();
        OtherTimerStays(s, k, w);
      }
    }
    if t.filter.transitioning {
      if fired.FilterExit? {
        assert multiset(t.pending)[FilterEnter] > 0;
        assert FilterEnter in t.pending;
      } else {
        var w :| w in s.pending && w.ForFilter();
        OtherTimerStays(s, k, w);
      }
    }
    if !t.animatedShots {
      OtherTimerStays(s, k, RevealShots);
    }
  }

  /** Any run of events keeps the invariant. */
  lemma {:induction false} RunConsistent(s: State, events: seq<Event>)
    requires Consistent(s)
    ensures Consistent(Run(s, events))
    decreases |events|
  {
    if |events| > 0 {
      StepConsistent(s, events[0]);
      RunConsistent(Step(s, events[0]), events[1..]);
    }
  }

  /** In every reachable state `mainMode` equals `displayMode` and
      `selectedShot` equals `displayShot`; once no timer is pending, no
      transition is running and the shots have been revealed. */
  lemma ReachableStates(events: seq<Event>)
    ensures var s := Run(Init, events);
      s.mode.selected == s.mode.displayed && s.filter.selected == s.filter.displayed
      && (|s.pending| == 0 ==> !s.mode.transitioning && !s.filter.transitioning && s.animatedShots)
  {
    assert Consistent(Init);
    RunConsistent(Init, events);
  }

  /** The guard compares with the stale `mainMode`: after a click on
      player position, a click back on ball hits before the exit timer fires is
      dropped, and once every timer has run the court shows player position,
      the first request's target rather than the last one's. */
  lemma StaleModeGuardDropsLastRequest()
    ensures var afterFirst := Run(Init, [Fire(0), RequestMode(PlayerPosition)]);
      Step(afterFirst, RequestMode(BallHits)) == afterFirst
    ensures var s := Run(Init, [Fire(0), RequestMode(PlayerPosition), RequestMode(BallHits), Fire(0), Fire(0)]);
      |s.pending| == 0 && s.mode.selected == PlayerPosition && s.mode.displayed == PlayerPosition
  {
    var s0 := Init.(animatedShots := true, pending := []);
    assert Step(Init, Fire(0)) == s0;
    var s1 := s0.(mode := Channel(BallHits, BallHits, true), pending := [ModeExit(PlayerPosition)]);
    assert Step(s0, RequestMode(PlayerPosition)) == s1;
    var s2 := s1;
    assert Step(s1, RequestMode(BallHits)) == s2;
    var s3 := s0.(mode := Channel(PlayerPosition, PlayerPosition, true), pending := [ModeEnter]);
    assert Step(s2, Fire(0)) == s3;
    assert Step(s3, Fire(0)) == s0.(mode := Channel(PlayerPosition, PlayerPosition, false), pending := []);
    RunOne(s0, RequestMode(PlayerPosition));
    RunCons(Init, Fire(0), [RequestMode(PlayerPosition)]);
    RunOne(s3, Fire(0));
    RunCons(s2, Fire(0), [Fire(0)]);
    RunCons(s1, RequestMode(BallHits), [Fire(0), Fire(0)]);
    RunCons(s0, RequestMode(PlayerPosition), [RequestMode(BallHits), Fire(0), Fire(0)]);
    RunCons(Init, Fire(0), [RequestMode(PlayerPosition), RequestMode(BallHits), Fire(0), Fire(0)]);
  }

  /** The enter timer clears the transition flag whatever was requested since:
      after the switch to player position is committed, a click on ball hits
      starts a new transition, but the first switch's enter timer then ends
      it. Player position is shown settled while the ball-hits exit timer is
      still pending. */
  lemma EarlyEnterShowsStaleMode()
    ensures var s := Run(Init, [Fire(0), RequestMode(PlayerPosition), Fire(0), RequestMode(BallHits), Fire(0)]);
      s.pending == [ModeExit(BallHits)] && s.mode.displayed == PlayerPosition && !s.mode.transitioning
      && Court.Render(CourtPropsOf(s)).heatmapVisible
  {
    EarlyEnterRun();
  }

  /** The event run behind the scenario above. */
  lemma EarlyEnterRun()
    ensures var s := Run(Init, [Fire(0), RequestMode(PlayerPosition), Fire(0), RequestMode(BallHits), Fire(0)]);
      s.pending == [ModeExit(BallHits)] && s.mode.displayed == PlayerPosition && !s.mode.transitioning
  {
    var s0 := Init.(animatedShots := true, pending := []);
    assert Step(Init, Fire(0)) == s0;
    var s1 := s0.(mode := Channel(BallHits, BallHits, true), pending := [ModeExit(PlayerPosition)]);
    assert Step(s0, RequestMode(PlayerPosition)) == s1;
    var s2 := s0.(mode := Channel(PlayerPosition, PlayerPosition, true), pending := [ModeEnter]);
    assert Step(s1, Fire(0)) == s2;
    var s3 := s2.(pending := [ModeEnter, ModeExit(BallHits)]);
    assert Step(s2, RequestMode(BallHits)) == s3;
    assert RemoveAt(s3.pending, 0) == [ModeExit(BallHits)];
    assert Step(s3, Fire(0)) == s2.(mode := Channel(PlayerPosition, PlayerPosition, false), pending := [ModeExit(BallHits)]);
    RunOne(s3, Fire(0));
    RunCons(s2, RequestMode(BallHits), [Fire(0)]);
    RunCons(s1, Fire(0), [RequestMode(BallHits), Fire(0)]);
    RunCons(s0, RequestMode(PlayerPosition), [Fire(0), RequestMode(BallHits), Fire(0)]);
    RunCons(Init, Fire(0), [RequestMode(PlayerPosition), Fire(0), RequestMode(BallHits), Fire(0)]);
  }

  /** The same race on the filter: choosing serves and then "all" before the
      exit timer fires leaves the serve filter in place. */
  lemma StaleFilterGuardDropsLastRequest()
    ensures var s := Run(Init, [Fire(0), RequestFilter("serve"), RequestFilter(AllShots), Fire(0), Fire(0)]);
      |s.pending| == 0 && s.filter.selected == "serve" && s.filter.displayed == "serve"
  {
    var s0 := Init.(animatedShots := true, pending := []);
    assert Step(Init, Fire(0)) == s0;
    var s1 := s0.(filter := Channel(AllShots, AllShots, true), pending := [FilterExit("serve")]);
    assert Step(s0, RequestFilter("serve")) == s1;
    var s2 := s1;
    assert Step(s1, RequestFilter(AllShots)) == s2;
    var s3 := s1.(filter := Channel("serve", "serve", true), pending := [FilterEnter]);
    assert Step(s2, Fire(0)) == s3;
    assert Step(s3, Fire(0)) == s3.(filter := Channel("serve", "serve", false), pending := []);
    RunOne(s3, Fire(0));
    RunCons(s2, Fire(0), [Fire(0)]);
    RunCons(s1, RequestFilter(AllShots), [Fire(0), Fire(0)]);
    RunCons(s0, RequestFilter("serve"), [RequestFilter(AllShots), Fire(0), Fire(0)]);
    RunCons(Init, Fire(0), [RequestFilter("serve"), RequestFilter(AllShots), Fire(0), Fire(0)]);
  }

  /** The filter predicate: every shot for "all", otherwise shots whose type id
      is the filter value. */
  function MatchesFilter(displayShot: string): Shot -> bool {
    (s: Shot) => displayShot == AllShots || TypeId(s.kind) == displayShot
  }

  /** The shots handed to the court and the legend. "all" keeps the list as it
      is; a type id keeps exactly the shots of that type; any other value
      keeps nothing. */
  function FilterShots(shots: seq<Shot>, displayShot: string): (r: seq<Shot>)
    ensures displayShot == AllShots ==> r == shots
    ensures forall i :: 0 <= i < |r| ==> r[i] in shots && (displayShot == AllShots || TypeId(r[i].kind) == displayShot)
    ensures forall i :: 0 <= i < |shots| && (displayShot == AllShots || TypeId(shots[i].kind) == displayShot) ==>
      shots[i] in r
    ensures displayShot != AllShots && (forall t :: TypeId(t) != displayShot) ==> r == []
  {
    var r := Keep(shots, MatchesFilter(displayShot));
    KeepAll(shots, MatchesFilter(displayShot));
    KeepNone(shots, MatchesFilter(displayShot));
    r
  }

  /** Filtering preserves order: the filter of a concatenation is the
      concatenation of the filters. */
  lemma FilterShotsStable(a: seq<Shot>, b: seq<Shot>, displayShot: string)
    ensures FilterShots(a + b, displayShot) == FilterShots(a, displayShot) + FilterShots(b, displayShot)
  {
    KeepConcat(a, b, MatchesFilter(displayShot));
  }

  /** Filtering by a type's id keeps the shots of that type; on the sample that
      is 27, 14, 19, 19, 15 or 6 shots. */
  lemma FilterShotsByType(shots: seq<Shot>, t: ShotType)
    ensures FilterShots(shots, TypeId(t)) == Keep(shots, OfType(t))
    ensures |FilterShots(SampleShots, TypeId(t))| == SampleTypeCount(t)
    ensures |FilterShots(SampleShots, AllShots)| == 100
  {
    KeepSame(shots, t);
    KeepSame(SampleShots, t);
    SampleTypeCounts(t);
  }

  lemma {:induction false} KeepSame(shots: seq<Shot>, t: ShotType)
    ensures Keep(shots, MatchesFilter(TypeId(t))) == Keep(shots, OfType(t))
  {
    if |shots| > 0 {
      TypeIdInjective(shots[0].kind, t);
      KeepSame(shots[1..], t);
    }
  }

  /** What the court gets: the filtered sample and the table for the current
      view, which always holds as many rows as the view's drawing reads. */
  function CourtPropsOf(s: State): (p: Court.CourtProps)
    ensures Court.TableFits(p.heatmapView, p.heatmapData)
    ensures p.heatmapData == HeatmapData(s.heatmapView) && p.heatmapView == s.heatmapView
    ensures p.shots == FilterShots(SampleShots, s.filter.displayed)
    ensures p.displayMode == s.mode.displayed && p.isTransitioning == s.mode.transitioning
    ensures p.animatedShots == s.animatedShots && p.isFilterTransitioning == s.filter.transitioning
  {
    Court.CourtProps(
      FilterShots(SampleShots, s.filter.displayed),
      s.mode.displayed,
      s.mode.transitioning,
      s.animatedShots,
      s.filter.transitioning,
      s.heatmapView,
      HeatmapData(s.heatmapView))
  }

  /** The player the demo shows as selected. */
  const SelectedPlayer: nat := 1

  /** What the legend gets: the same filtered list the court draws. */
  function LegendPropsOf(s: State): (p: Legend.LegendProps)
    ensures p.filteredShots == CourtPropsOf(s).shots
    ensures p.heatmapView == CourtPropsOf(s).heatmapView
    ensures p.displayMode == CourtPropsOf(s).displayMode && p.isTransitioning == CourtPropsOf(s).isTransitioning
    ensures p.displayShot == s.filter.displayed && p.selectedPlayer == SelectedPlayer
  {
    Legend.LegendProps(
      s.mode.displayed,
      s.mode.transitioning,
      FilterShots(SampleShots, s.filter.displayed),
      s.filter.displayed,
      SelectedPlayer,
      s.heatmapView)
  }

  /** Whether the ball-hits controls and the position controls are shown: at
      most one of them, and neither during a mode transition. */
  function ControlPanels(s: State): (shown: (bool, bool))
    ensures !(shown.0 && shown.1)
    ensures s.mode.transitioning ==> !shown.0 && !shown.1
    ensures shown.0 <==> s.mode.displayed == BallHits && !s.mode.transitioning
    ensures shown.1 <==> s.mode.displayed == PlayerPosition && !s.mode.transitioning
  {
    (ShownFor(BallHits, s.mode.displayed, s.mode.transitioning),
     ShownFor(PlayerPosition, s.mode.displayed, s.mode.transitioning))
  }

  /** The whole component: controls, court and legend, from any state. The
      legend's count and the court's marker list agree, and so do the legend's
      region count and the court's table. */
  function Render(s: State): (view: ((bool, bool), Court.Scene, Legend.LegendView))
    ensures |view.1.marks| == Decimal.LeadingNumber(view.2.countText)
    ensures Decimal.LeadingNumber(view.2.coverageCaption) == |HeatmapData(s.heatmapView)|
    ensures view.1.shotsVisible == view.2.ballHitsVisible == view.0.0
    ensures view.1.heatmapVisible == view.2.positionVisible == view.0.1
    ensures view.1.shotsVisible <==> s.mode.displayed == BallHits && !s.mode.transitioning
    ensures view.1.heatmapVisible <==> s.mode.displayed == PlayerPosition && !s.mode.transitioning
    ensures |view.1.marks| == |FilterShots(SampleShots, s.filter.displayed)|
    ensures view.2.countText == Legend.ShotCountText(|FilterShots(SampleShots, s.filter.displayed)|, s.filter.displayed)
  {
    (ControlPanels(s), Court.Render(CourtPropsOf(s)), Legend.Render(LegendPropsOf(s)))
  }
}

=== FILE: constants.dfy ===
/** The Ball Map's constant data: animation delays, the filter buttons' shot
    types, and the 100 sample shots, with the facts the views rely on. */
module Constants {
  import opened Types
  import opened Seqs

  /** Animation delays in milliseconds. */
  const ShotsDelay: nat := 400
  const ModeTransition: nat := 300
  const FilterTransition: nat := 200
  const TransitionIn: nat := 50
  const ShotStagger: nat := 50

  /** Every delay is positive, so each scheduled step really is deferred. */
  lemma DelaysPositive()
    ensures ShotsDelay > 0 && ModeTransition > 0 && FilterTransition > 0
    ensures TransitionIn > 0 && ShotStagger == 50
  {
  }

  /** A filter button: the filter id it sets and its caption. */
  datatype ShotTypeOption = ShotTypeOption(id: string, caption: string)

  const ShotTypes: seq<ShotTypeOption> := [
    ShotTypeOption("forehand", "Forehand"),
    ShotTypeOption("backhand", "Backhand"),
    ShotTypeOption("forehandVolley", "Forehand Volley"),
    ShotTypeOption("backhandVolley", "Backhand Volley"),
    ShotTypeOption("serve", "Serve"),
    ShotTypeOption("overhead", "Overhead")
  ]

  /** The buttons carry the six type ids, pairwise distinct, none of them the
      catch-all filter, in the order of the `Shot.type` union. */
  lemma ShotTypesFollowUnion()
    ensures |ShotTypes| == |ShotTypeOrder| == 6
    ensures forall i :: 0 <= i < |ShotTypes| ==> ShotTypes[i].id == TypeId(ShotTypeOrder[i])
    ensures forall i, j :: 0 <= i < j < |ShotTypes| ==> ShotTypes[i].id != ShotTypes[j].id
    ensures forall i :: 0 <= i < |ShotTypes| ==> ShotTypes[i].id != AllShots
  {
    forall i, j | 0 <= i < j < |ShotTypes| ensures ShotTypes[i].id != ShotTypes[j].id {
      TypeIdInjective(ShotTypeOrder[i], ShotTypeOrder[j]);
    }
  }

  /** A run of shots of one type and result at the given coordinates, the way
      the sample groups them. */
  function Block(coords: seq<(real, real)>, kind: ShotType, result: ShotResult): seq<Shot> {
    seq(|coords|, i requires 0 <= i < |coords| => Shot(coords[i].0, coords[i].1, kind, result))
  }

  const ForehandInterceptions: seq<(real, real)> := [
    (75.0, 25.0), (25.0, 15.0), (55.0, 20.0), (65.0, 22.0), (85.0, 21.0), (55.0, 20.0), (35.0, 19.0),
    (80.0, 30.0), (47.0, 16.0)]
  const ForehandBounces: seq<(real, real)> := [
    (75.0, 20.0), (70.0, 50.0), (15.0, 65.0), (30.0, 67.0), (45.0, 66.0), (60.0, 66.0), (75.0, 66.0),
    (20.0, 50.0), (40.0, 48.0), (60.0, 48.0), (75.0, 49.0), (85.0, 50.0), (33.0, 60.0), (25.0, 22.0),
    (89.0, 45.0), (54.0, 12.0), (73.0, 28.0), (18.0, 65.0)]
  const BackhandInterceptions: seq<(real, real)> := [
    (74.0, 26.0), (27.0, 14.0), (78.0, 29.0), (46.0, 17.0)]
  const BackhandBounces: seq<(real, real)> := [
    (74.0, 19.0), (72.0, 51.0), (14.0, 64.0), (29.0, 66.0), (47.0, 68.0), (58.0, 65.0), (74.0, 68.0),
    (19.0, 52.0), (42.0, 46.0), (17.0, 64.0)]
  const ForehandVolleyInterceptions: seq<(real, real)> := [
    (58.0, 29.0), (26.0, 17.0)]
  const ForehandVolleyBounces: seq<(real, real)> := [
    (22.0, 68.0), (40.0, 66.0), (58.0, 64.0), (75.0, 65.0), (32.0, 54.0), (49.0, 60.0), (67.0, 58.0),
    (28.0, 48.0), (82.0, 52.0), (60.0, 50.0), (38.0, 36.0), (52.0, 34.0), (45.0, 33.0), (61.0, 35.0),
    (21.0, 0.0), (31.0, 0.0), (81.0, 0.0)]
  const BackhandVolleyInterceptions: seq<(real, real)> := [
    (57.0, 30.0), (27.0, 16.0)]
  const BackhandVolleyBounces: seq<(real, real)> := [
    (23.0, 69.0), (39.0, 67.0), (59.0, 62.0), (76.0, 66.0), (33.0, 55.0), (48.0, 59.0), (66.0, 57.0),
    (29.0, 47.0), (83.0, 51.0), (62.0, 49.0), (37.0, 35.0), (54.0, 33.0), (44.0, 32.0), (59.0, 34.0),
    (20.0, 0.0), (30.0, 0.0), (82.0, 0.0)]
  const ServeBounces: seq<(real, real)> := [
    (18.0, 43.0), (28.0, 51.0), (38.0, 30.0), (48.0, 42.0), (58.0, 44.0), (68.0, 40.0), (78.0, 51.0),
    (88.0, 32.0), (33.0, 48.0), (63.0, 69.0), (45.0, 47.0), (75.0, 48.0), (21.0, 40.0), (85.0, 39.0),
    (30.0, 70.0)]
  const OverheadBounces: seq<(real, real)> := [
    (20.0, 45.0), (30.0, 53.0), (77.0, 46.0), (23.0, 41.0), (84.0, 37.0), (32.0, 68.0)]

  /** The sample, in source order: ten runs, each of one type and result. */
  const SampleShots: seq<Shot> :=
    Block(ForehandInterceptions, Forehand, Interception)
    + Block(ForehandBounces, Forehand, GroundBounce)
    + Block(BackhandInterceptions, Backhand, Interception)
    + Block(BackhandBounces, Backhand, GroundBounce)
    + Block(ForehandVolleyInterceptions, ForehandVolley, Interception)
    + Block(ForehandVolleyBounces, ForehandVolley, GroundBounce)
    + Block(BackhandVolleyInterceptions, BackhandVolley, Interception)
    + Block(BackhandVolleyBounces, BackhandVolley, GroundBounce)
    + Block(ServeBounces, Serve, GroundBounce)
    + Block(OverheadBounces, Overhead, GroundBounce)

  /** Shots of type `t`. */
  function OfType(t: ShotType): Shot -> bool {
    (s: Shot) => s.kind == t
  }

  /** Shots with result `r`. */
  function WithResult(r: ShotResult): Shot -> bool {
    (s: Shot) => s.result == r
  }

  /** `p` looks only at a shot's type and result, not at where it landed. */
  ghost predicate ByCategory(p: Shot -> bool) {
    forall s: Shot :: p(s) == p(Shot(0.0, 0.0, s.kind, s.result))
  }

  /** How many shots of a run of `n` shots of type `k` and result `r` pass `p`. */
  function RunCount(p: Shot -> bool, k: ShotType, r: ShotResult, n: nat): nat {
    if p(Shot(0.0, 0.0, k, r)) then n else 0
  }

  /** A run passes a category filter whole or not at all. */
  lemma BlockKeep(coords: seq<(real, real)>, k: ShotType, r: ShotResult, p: Shot -> bool)
    requires ByCategory(p)
    ensures |Keep(Block(coords, k, r), p)| == RunCount(p, k, r, |coords|)
  {
    var b := Block(coords, k, r);
    if p(Shot(0.0, 0.0, k, r)) {
      KeepAll(b, p);
    } else {
      KeepNone(b, p);
    }
  }

  /** Counting the sample with a category filter, run by run. */
  lemma {:induction false} SampleCount(p: Shot -> bool)
    requires ByCategory(p)
    ensures |Keep(SampleShots, p)| ==
      RunCount(p, Forehand, Interception, 9) + RunCount(p, Forehand, GroundBounce, 18)
      + RunCount(p, Backhand, Interception, 4) + RunCount(p, Backhand, GroundBounce, 10)
      + RunCount(p, ForehandVolley, Interception, 2) + RunCount(p, ForehandVolley, GroundBounce, 17)
      + RunCount(p, BackhandVolley, Interception, 2) + RunCount(p, BackhandVolley, GroundBounce, 17)
      + RunCount(p, Serve, GroundBounce, 15) + RunCount(p, Overhead, GroundBounce, 6)
  {
    var b0 := Block(ForehandInterceptions, Forehand, Interception);
    var b1 := Block(ForehandBounces, Forehand, GroundBounce);
    var b2 := Block(BackhandInterceptions, Backhand, Interception);
    var b3 := Block(BackhandBounces, Backhand, GroundBounce);
    var b4 := Block(ForehandVolleyInterceptions, ForehandVolley, Interception);
    var b5 := Block(ForehandVolleyBounces, ForehandVolley, GroundBounce);
    var b6 := Block(BackhandVolleyInterceptions, BackhandVolley, Interception);
    var b7 := Block(BackhandVolleyBounces, BackhandVolley, GroundBounce);
    var b8 := Block(ServeBounces, Serve, GroundBounce);
    var b9 := Block(OverheadBounces, Overhead, GroundBounce);
    KeepConcat(b0, b1, p);
    KeepConcat(b0 + b1, b2, p);
    KeepConcat(b0 + b1 + b2, b3, p);
    KeepConcat(b0 + b1 + b2 + b3, b4, p);
    KeepConcat(b0 + b1 + b2 + b3 + b4, b5, p);
    KeepConcat(b0 + b1 + b2 + b3 + b4 + b5, b6, p);
    KeepConcat(b0 + b1 + b2 + b3 + b4 + b5 + b6, b7, p);
    KeepConcat(b0 + b1 + b2 + b3 + b4 + b5 + b6 + b7, b8, p);
    KeepConcat(b0 + b1 + b2 + b3 + b4 + b5 + b6 + b7 + b8, b9, p);
    BlockKeep(ForehandInterceptions, Forehand, Interception, p);
    BlockKeep(ForehandBounces, Forehand, GroundBounce, p);
    BlockKeep(BackhandInterceptions, Backhand, Interception, p);
    BlockKeep(BackhandBounces, Backhand, GroundBounce, p);
    BlockKeep(ForehandVolleyInterceptions, ForehandVolley, Interception, p);
    BlockKeep(ForehandVolleyBounces, ForehandVolley, GroundBounce, p);
    BlockKeep(BackhandVolleyInterceptions, BackhandVolley, Interception, p);
    BlockKeep(BackhandVolleyBounces, BackhandVolley, GroundBounce, p);
    BlockKeep(ServeBounces, Serve, GroundBounce, p);
    BlockKeep(OverheadBounces, Overhead, GroundBounce, p);
  }

  /** How many shots of each type the sample holds. */
  function SampleTypeCount(t: ShotType): nat {
    match t
    case Forehand => 27
    case Backhand => 14
    case ForehandVolley => 19
    case BackhandVolley => 19
    case Serve => 15
    case Overhead => 6
  }

  /** The sample holds 100 shots: 27 forehands, 14 backhands, 19 forehand
      volleys, 19 backhand volleys, 15 serves and 6 overheads. */
  lemma SampleTypeCounts(t: ShotType)
    ensures |SampleShots| == 100
    ensures |Keep(SampleShots, OfType(t))| == SampleTypeCount(t)
  {
    SampleCount(OfType(t));
  }

  /** Shots that are serves or overheads and were intercepted. */
  function InterceptedServeOrOverhead(): Shot -> bool {
    (s: Shot) => (s.kind == Serve || s.kind == Overhead) && s.result == Interception
  }

  /** Only 17 of the 100 shots are interceptions; the other 83 bounced. */
  lemma SampleResults(r: ShotResult)
    ensures |Keep(SampleShots, WithResult(r))| == if r == Interception then 17 else 83
  {
    SampleCount(WithResult(r));
  }

  /** Every serve and every overhead of the sample bounced. */
  lemma ServesAndOverheadsBounce()
    ensures forall i :: 0 <= i < |SampleShots| && SampleShots[i].kind in {Serve, Overhead} ==>
      SampleShots[i].result == GroundBounce
  {
    SampleCount(InterceptedServeOrOverhead());
    KeepNone(SampleShots, InterceptedServeOrOverhead());
  }

  /** The sample's coordinates span x in [14, 89] and y in [0, 70]. */
  function InSampleRange(): Shot -> bool {
    (s: Shot) => 14.0 <= s.x <= 89.0 && 0.0 <= s.y <= 70.0
  }

  /** Each of the four bounds of the sample range is reached by some shot. */
  lemma SampleRangeReached()
    ensures |SampleShots| == 100
    ensures SampleShots[33].x == 14.0 && SampleShots[23].x == 89.0
    ensures SampleShots[57].y == 0.0 && SampleShots[93].y == 70.0
  {
    var b0 := Block(ForehandInterceptions, Forehand, Interception);
    var b1 := Block(ForehandBounces, Forehand, GroundBounce);
    var b2 := Block(BackhandInterceptions, Backhand, Interception);
    var b3 := Block(BackhandBounces, Backhand, GroundBounce);
    var b4 := Block(ForehandVolleyInterceptions, ForehandVolley, Interception);
    var b5 := Block(ForehandVolleyBounces, ForehandVolley, GroundBounce);
    var b6 := Block(BackhandVolleyInterceptions, BackhandVolley, Interception);
    var b7 := Block(BackhandVolleyBounces, BackhandVolley, GroundBounce);
    var b8 := Block(ServeBounces, Serve, GroundBounce);
    var b9 := Block(OverheadBounces, Overhead, GroundBounce);
    var upTo2 := b0 + b1;
    var upTo4 := upTo2 + b2 + b3;
    var upTo6 := upTo4 + b4 + b5;
    var upTo9 := upTo6 + b6 + b7 + b8;
    assert |upTo2| == 27 && |upTo4| == 41 && |upTo6| == 60 && |upTo9| == 94;
    assert SampleShots == upTo9 + b9;
    assert upTo2[23] == b1[14];
    assert upTo4[33] == b3[2];
    assert upTo6[57] == b5[14];
    assert upTo9[93] == b8[14];
  }

  /** Every sample shot lies in x in [14, 89] and y in [0, 70]. */
  lemma SampleRanges()
    ensures All(SampleShots, InSampleRange())
  {
    var p := InSampleRange();
    var b0 := Block(ForehandInterceptions, Forehand, Interception);
    var b1 := Block(ForehandBounces, Forehand, GroundBounce);
    var b2 := Block(BackhandInterceptions, Backhand, Interception);
    var b3 := Block(BackhandBounces, Backhand, GroundBounce);
    var b4 := Block(ForehandVolleyInterceptions, ForehandVolley, Interception);
    var b5 := Block(ForehandVolleyBounces, ForehandVolley, GroundBounce);
    var b6 := Block(BackhandVolleyInterceptions, BackhandVolley, Interception);
    var b7 := Block(BackhandVolleyBounces, BackhandVolley, GroundBounce);
    var b8 := Block(ServeBounces, Serve, GroundBounce);
    var b9 := Block(OverheadBounces, Overhead, GroundBounce);
    ForehandCoordsInRange();
    BackhandCoordsInRange();
    VolleyCoordsInRange();
    ServeAndOverheadCoordsInRange();
    RunInRange(ForehandInterceptions, Forehand, Interception);
    RunInRange(ForehandBounces, Forehand, GroundBounce);
    RunInRange(BackhandInterceptions, Backhand, Interception);
    RunInRange(BackhandBounces, Backhand, GroundBounce);
    RunInRange(ForehandVolleyInterceptions, ForehandVolley, Interception);
    RunInRange(ForehandVolleyBounces, ForehandVolley, GroundBounce);
    RunInRange(BackhandVolleyInterceptions, BackhandVolley, Interception);
    RunInRange(BackhandVolleyBounces, BackhandVolley, GroundBounce);
    RunInRange(ServeBounces, Serve, GroundBounce);
    RunInRange(OverheadBounces, Overhead, GroundBounce);
    AllConcat(b0, b1, p);
    AllConcat(b0 + b1, b2, p);
    AllConcat(b0 + b1 + b2, b3, p);
    AllConcat(b0 + b1 + b2 + b3, b4, p);
    AllConcat(b0 + b1 + b2 + b3 + b4, b5, p);
    AllConcat(b0 + b1 + b2 + b3 + b4 + b5, b6, p);
    AllConcat(b0 + b1 + b2 + b3 + b4 + b5 + b6, b7, p);
    AllConcat(b0 + b1 + b2 + b3 + b4 + b5 + b6 + b7, b8, p);
    AllConcat(b0 + b1 + b2 + b3 + b4 + b5 + b6 + b7 + b8, b9, p);
  }

  /** Coordinates inside the sample range. */
  predicate CoordsInRange(coords: seq<(real, real)>) {
    forall i :: 0 <= i < |coords| ==> 14.0 <= coords[i].0 <= 89.0 && 0.0 <= coords[i].1 <= 70.0
  }

  /** A run lies in the sample range when its coordinates do. */
  lemma RunInRange(coords: seq<(real, real)>, k: ShotType, r: ShotResult)
    requires CoordsInRange(coords)
    ensures All(Block(coords, k, r), InSampleRange())
  {
  }

  lemma ForehandCoordsInRange()
    ensures CoordsInRange(ForehandInterceptions) && CoordsInRange(ForehandBounces)
  {
  }

  lemma BackhandCoordsInRange()
    ensures CoordsInRange(BackhandInterceptions) && CoordsInRange(BackhandBounces)
  {
  }

  lemma VolleyCoordsInRange()
    ensures CoordsInRange(ForehandVolleyInterceptions) && CoordsInRange(ForehandVolleyBounces)
    ensures CoordsInRange(BackhandVolleyInterceptions) && CoordsInRange(BackhandVolleyBounces)
  {
  }

  lemma ServeAndOverheadCoordsInRange()
    ensures CoordsInRange(ServeBounces) && CoordsInRange(OverheadBounces)
  {
  }

  /** The third and sixth forehand interceptions are the same shot. */
  lemma SampleRepeatsAShot()
    ensures SampleShots[2] == SampleShots[5] == Shot(55.0, 20.0, Forehand, Interception)
  {
  }
}

=== FILE: court.dfy ===
/** The court drawing: region rectangles and their overlays, percentage label
    anchors, shot markers with their staggered reveal, and which layers show. */
module Court {
  import opened Types
  import opened Svg
  import opened Utils
  import opened Constants

  /** The half-court outline drawn on the SVG canvas (open at the net, y = 0). */
  const Outline: Rect := Rect(10.0, 0.0, 80.0, 75.0)

  /** The nine zone rectangles as drawn: net row, transition row, back row,
      each left to right. */
  const ZoneRects: seq<Rect> := [
    Rect(10.0, 0.0, 26.67, 25.0), Rect(36.67, 0.0, 26.67, 25.0), Rect(63.33, 0.0, 26.67, 25.0),
    Rect(10.0, 25.0, 26.67, 25.0), Rect(36.67, 25.0, 26.67, 25.0), Rect(63.33, 25.0, 26.67, 25.0),
    Rect(10.0, 50.0, 26.67, 25.0), Rect(36.67, 50.0, 26.67, 25.0), Rect(63.33, 50.0, 26.67, 25.0)
  ]

  /** The three full-height column rectangles, left to right. */
  const SideRects: seq<Rect> := [
    Rect(10.0, 0.0, 26.67, 75.0), Rect(36.67, 0.0, 26.67, 75.0), Rect(63.33, 0.0, 26.67, 75.0)
  ]

  /** The front (net) and back half rectangles. */
  const FrontBackRects: seq<Rect> := [
    Rect(10.0, 0.0, 80.0, 37.5), Rect(10.0, 37.5, 80.0, 37.5)
  ]

  /** The rectangles drawn for a view, in the order of the table rows they are
      filled from; the undeclared `Heatmap` view draws none. */
  function RegionRects(view: HeatmapView): (r: seq<Rect>)
    ensures view != Heatmap ==> |r| == |HeatmapData(view)|
    ensures view == Heatmap ==> r == []
  {
    match view
    case Zones => ZoneRects
    case Sides => SideRects
    case FrontBack => FrontBackRects
    case Heatmap => []
  }

  /** The left edges of the three columns. */
  const ColumnLefts: seq<real> := [10.0, 36.67, 63.33]

  /** Zone `i` sits in column `i % 3` and row `i / 3` of a grid of 26.67 x 25
      cells, and shares its column's horizontal extent. */
  lemma ZoneGrid()
    ensures |ZoneRects| == 9
    ensures forall i :: 0 <= i < 9 ==>
      ZoneRects[i] == Rect(ColumnLefts[i % 3], 25.0 * ((i / 3) as real), 26.67, 25.0)
    ensures forall i :: 0 <= i < 9 ==>
      ZoneRects[i].x == SideRects[i % 3].x && ZoneRects[i].Right() == SideRects[i % 3].Right()
  {
  }

  /** Every region of every view lies inside the court outline. */
  lemma RegionsInsideOutline(view: HeatmapView)
    ensures forall i :: 0 <= i < |RegionRects(view)| ==> Outline.Encloses(RegionRects(view)[i])
  {
  }

  /** The three zone rows, each 25 high and starting at y = 0, 25, 50, meet
      edge to edge and span exactly the outline's height [0, 75]. */
  lemma RowsSpanOutline()
    ensures ZoneRects[0].y == Outline.y && ZoneRects[0].Bottom() == ZoneRects[3].y
    ensures ZoneRects[3].Bottom() == ZoneRects[6].y && ZoneRects[6].Bottom() == Outline.Bottom()
  {
  }

  /** The columns start at the outline's left edge x = 10 and end at its right
      edge x = 90; left and middle meet exactly, but the middle one ends at
      36.67 + 26.67 = 63.34 while the right one starts at 63.33, a 0.01 overlap. */
  lemma ColumnsOverlapByOneHundredth()
    ensures SideRects[0].x == Outline.x && SideRects[2].Right() == Outline.Right()
    ensures SideRects[0].Right() == SideRects[1].x
    ensures SideRects[1].Right() - SideRects[2].x == 0.01
  {
  }

  /** Which column holds `x`, taking the leftmost one on a shared edge. */
  function ColumnOf(x: real): (c: nat)
    requires Outline.x <= x <= Outline.Right()
    ensures c < 3 && SideRects[c].x <= x <= SideRects[c].Right()
  {
    if x <= 36.67 then 0 else if x <= 63.34 then 1 else 2
  }

  /** Which zone row holds `y`, taking the upper one on a shared edge. */
  function RowOf(y: real): (r: nat)
    requires Outline.y <= y <= Outline.Bottom()
    ensures r < 3 && ZoneRects[3 * r].y <= y <= ZoneRects[3 * r].Bottom()
  {
    if y <= 25.0 then 0 else if y <= 50.0 then 1 else 2
  }

  /** Every view that draws regions leaves no gap: each outline point is in some
      region. */
  lemma RegionsCoverOutline(view: HeatmapView)
    requires view != Heatmap
    ensures Covers(RegionRects(view), Outline)
  {
    var rects := RegionRects(view);
    forall p: Point | Outline.Contains(p)
      ensures exists i :: 0 <= i < |rects| && rects[i].Contains(p)
    {
      var c := ColumnOf(p.x);
      var r := RowOf(p.y);
      match view
      case Zones =>
        assert ZoneRects[3 * r + c].Contains(p);
      case Sides =>
        assert SideRects[c].Contains(p);
      case FrontBack =>
        if p.y <= 37.5 {
          assert FrontBackRects[0].Contains(p);
        } else {
          assert FrontBackRects[1].Contains(p);
        }
    }
  }

  /** The front/back halves share no area: with the cover above they tile the
      outline exactly. */
  lemma FrontBackTilesOutline()
    ensures Covers(FrontBackRects, Outline)
    ensures !Overlap(FrontBackRects[0], FrontBackRects[1])
  {
    RegionsCoverOutline(FrontBack);
  }

  /** The only columns that share area are the middle and the right one. */
  lemma SideOverlaps(i: nat, j: nat)
    requires i < j < 3
    ensures Overlap(SideRects[i], SideRects[j]) <==> i == 1 && j == 2
  {
  }

  /** Two zones share area exactly when they are the middle and the right zone
      of one row: the grid is a tiling up to those three 0.01-wide slivers. */
  lemma ZoneOverlaps(i: nat, j: nat)
    requires i < j < 9
    ensures Overlap(ZoneRects[i], ZoneRects[j]) <==> i % 3 == 1 && j == i + 1
  {
  }

  /** Where the percentage text of row `index` is anchored: the cell centre
      (23.33 + 26.67 col, 12.5 + 25 row) nudged by (1, 2) for zones, the column
      centre line at 37.5 nudged by (1, 1) for columns, x = 70 and the band
      centre nudged by (1, 2) for front/back. */
  function LabelAnchor(view: HeatmapView, index: nat): (a: Point)
    ensures index < |RegionRects(view)| ==> RegionRects(view)[index].StrictlyContains(a)
  {
    match view
    case Zones =>
      var row := (index / 3) as real;
      var col := (index % 3) as real;
      Point(23.33 + col * 26.67 + 1.0, 12.5 + row * 25.0 + 2.0)
    case Sides => Point(23.33 + (index as real) * 26.67 + 1.0, 37.5 + 1.0)
    case FrontBack => Point(70.0 + 1.0, 18.75 + (index as real) * 37.5 + 2.0)
    case Heatmap => Point(0.0, 0.0)
  }

  /** Each label is printed strictly inside the rectangle whose value it shows,
      in all three drawn views. */
  lemma LabelInsideItsRegion(view: HeatmapView, index: nat)
    requires index < |RegionRects(view)|
    ensures RegionRects(view)[index].StrictlyContains(LabelAnchor(view, index))
  {
    if view == Zones {
      ZoneGrid();
      var row := index / 3;
      var col := index % 3;
      assert row < 3 && col < 3;
    }
  }

  /** A filled region: its rectangle and the alpha of its grey fill. */
  datatype Overlay = Overlay(rect: Rect, alpha: real)

  /** Drawing the overlays reads rows 0 .. n-1 of the table, n being the number
      of rectangles the view draws: 9, 3, 2, or none. */
  predicate TableFits(view: HeatmapView, data: seq<HeatmapRow>) {
    |data| >= |RegionRects(view)|
  }

  /** The overlays of a view: rectangle `i` filled according to row `i`. A busier
      region is never drawn lighter than a quieter one, and percentages give
      alphas within [0.2, 0.7]. */
  function Overlays(view: HeatmapView, data: seq<HeatmapRow>): (r: seq<Overlay>)
    requires TableFits(view, data)
    ensures |r| == |RegionRects(view)|
    ensures forall i :: 0 <= i < |r| ==> r[i].rect == RegionRects(view)[i]
    ensures forall i :: 0 <= i < |r| ==> (data[i].value as real) == (r[i].alpha - 0.2) * 200.0
    ensures forall i :: 0 <= i < |r| && 0 <= data[i].value <= 100 ==> 0.2 <= r[i].alpha <= 0.7
    ensures forall i, j :: 0 <= i < |r| && 0 <= j < |r| && data[i].value <= data[j].value ==>
      r[i].alpha <= r[j].alpha
  {
    var rects := RegionRects(view);
    seq(|rects|, i requires 0 <= i < |rects| => Overlay(rects[i], OverlayAlpha(data[i].value as real)))
  }

  /** A percentage text and where it is printed. */
  datatype Label = Label(at: Point, value: int)

  /** One label per table row, in the three drawn views; none otherwise. */
  function Labels(view: HeatmapView, data: seq<HeatmapRow>): (r: seq<Label>)
    ensures view == Heatmap ==> r == []
    ensures view != Heatmap ==> |r| == |data|
    ensures forall i :: 0 <= i < |r| ==> r[i].value == data[i].value && r[i].at == LabelAnchor(view, i)
  {
    if view == Heatmap then []
    else seq(|data|, i requires 0 <= i < |data| => Label(LabelAnchor(view, i), data[i].value))
  }

  /** The marker of a shot: a circle of radius 1.5 for a ground bounce, an X
      with arms of 1 for an interception, either centred on the shot. */
  function ShotMarker(s: Shot): (m: Marker)
    ensures m.Circle? <==> s.result == GroundBounce
    ensures MarkerCenter(m) == Point(s.x, s.y)
    ensures MarkerReach(m) == if s.result == GroundBounce then 1.5 else 1.0
    ensures m.Cross? ==> m == CrossAt(Point(s.x, s.y), 1.0)
  {
    match s.result
    case GroundBounce => Circle(Point(s.x, s.y), 1.5)
    case Interception => CrossAt(Point(s.x, s.y), 1.0)
  }

  /** The reveal delay of the `index`-th marker, in ms: a multiple of the
      stagger that gives the index back, or 0 for every marker while a filter
      transition runs. */
  function RevealDelay(index: nat, isFilterTransitioning: bool): (ms: nat)
    ensures ms % ShotStagger == 0
    ensures ms / ShotStagger == if isFilterTransitioning then 0 else index
  {
    if isFilterTransitioning then 0 else index * ShotStagger
  }

  /** Outside a filter transition a later marker always starts later. */
  lemma RevealDelayIncreasing(i: nat, j: nat)
    requires i < j
    ensures RevealDelay(i, false) < RevealDelay(j, false)
    ensures RevealDelay(i, true) == RevealDelay(j, true) == 0
  {
  }

  /** The fields a marker's key is built from: position, type and result. */
  type ShotKey = (real, real, ShotType, ShotResult)

  function KeyOf(s: Shot): ShotKey {
    (s.x, s.y, s.kind, s.result)
  }

  /** One drawn shot: its key, marker, reveal delay and whether it is revealed. */
  datatype ShotMark = ShotMark(key: ShotKey, marker: Marker, delay: nat, revealed: bool)

  /** A marker is revealed (full opacity, scale 1) once the shots have animated in, in ball-hits mode,
      outside a filter transition. */
  predicate ShotRevealed(animatedShots: bool, displayMode: MainMode, isFilterTransitioning: bool) {
    animatedShots && displayMode == BallHits && !isFilterTransitioning
  }

  /** The marks of `shots`, one per shot in list order; outside a filter
      transition they reveal in list order. */
  function ShotMarks(shots: seq<Shot>, animatedShots: bool, displayMode: MainMode, isFilterTransitioning: bool)
    : (r: seq<ShotMark>)
    ensures |r| == |shots|
    ensures forall i :: 0 <= i < |r| ==>
      r[i].key == KeyOf(shots[i]) && r[i].marker == ShotMarker(shots[i])
      && r[i].revealed == ShotRevealed(animatedShots, displayMode, isFilterTransitioning)
    ensures forall i :: 0 <= i < |r| ==> r[i].delay == RevealDelay(i, isFilterTransitioning)
    ensures !isFilterTransitioning ==> forall i, j :: 0 <= i < j < |r| ==> r[i].delay < r[j].delay
    ensures isFilterTransitioning ==> forall i :: 0 <= i < |r| ==> r[i].delay == 0
  {
    seq(|shots|, i requires 0 <= i < |shots| =>
      ShotMark(KeyOf(shots[i]), ShotMarker(shots[i]), RevealDelay(i, isFilterTransitioning),
               ShotRevealed(animatedShots, displayMode, isFilterTransitioning)))
  }

  /** The marker keys of the sample are not unique: the third and sixth shots
      give the same key. */
  lemma SampleMarkerKeysCollide()
    ensures KeyOf(SampleShots[2]) == KeyOf(SampleShots[5])
    ensures ShotMarks(SampleShots, true, BallHits, false)[2].key == ShotMarks(SampleShots, true, BallHits, false)[5].key
  {
    SampleRepeatsAShot();
  }

  /** Marker keys built from the shot's fields are unique exactly when no shot
      occurs twice in the list. */
  lemma MarkKeysUniqueIff(shots: seq<Shot>, animatedShots: bool, displayMode: MainMode, isFilterTransitioning: bool)
    ensures var r := ShotMarks(shots, animatedShots, displayMode, isFilterTransitioning);
      (forall i, j :: 0 <= i < j < |r| ==> r[i].key != r[j].key)
      <==> (forall i, j :: 0 <= i < j < |shots| ==> shots[i] != shots[j])
  {
    var r := ShotMarks(shots, animatedShots, displayMode, isFilterTransitioning);
    assert forall i :: 0 <= i < |r| ==> r[i].key == KeyOf(shots[i]);
    forall i, j | 0 <= i < |shots| && 0 <= j < |shots|
      ensures r[i].key == r[j].key <==> shots[i] == shots[j]
    {
      if r[i].key == r[j].key {
        assert shots[i] == Shot(r[i].key.0, r[i].key.1, r[i].key.2, r[i].key.3);
      }
    }
  }

  /** A key that also carries the marker's position in the list. */
  function IndexedKey(index: nat, s: Shot): (k: (nat, ShotKey))
    ensures k.0 == index && k.1 == KeyOf(s)
  {
    (index, KeyOf(s))
  }

  /** Indexed keys are unique for every list, repeated shots included, and
      still determine the shot they belong to. */
  lemma IndexedKeysUnique(shots: seq<Shot>)
    ensures forall i, j :: 0 <= i < j < |shots| ==> IndexedKey(i, shots[i]) != IndexedKey(j, shots[j])
    ensures forall i, j :: 0 <= i < |shots| && 0 <= j < |shots| && IndexedKey(i, shots[i]).1 == IndexedKey(j, shots[j]).1 ==>
      shots[i] == shots[j]
  {
  }

  /** Every sample shot lands inside the court outline. */
  lemma SampleInsideOutline()
    ensures forall i :: 0 <= i < |SampleShots| ==> Outline.Contains(Point(SampleShots[i].x, SampleShots[i].y))
  {
    SampleRanges();
  }

  /** What the court is given. */
  datatype CourtProps = CourtProps(
    shots: seq<Shot>,
    displayMode: MainMode,
    isTransitioning: bool,
    animatedShots: bool,
    isFilterTransitioning: bool,
    heatmapView: HeatmapView,
    heatmapData: seq<HeatmapRow>)

  /** What the court draws: the heat-map layer (overlays and labels), the shot
      layer, and whether each layer is visible. */
  datatype Scene = Scene(
    overlays: seq<Overlay>,
    labels: seq<Label>,
    heatmapVisible: bool,
    marks: seq<ShotMark>,
    shotsVisible: bool)

  /** The court drawing. Both layers are always built, so the table must fit
      the view whichever mode is shown; at most one layer is visible, and none
      during a mode transition. */
  function Render(p: CourtProps): (s: Scene)
    requires TableFits(p.heatmapView, p.heatmapData)
    ensures |s.overlays| == |RegionRects(p.heatmapView)| && |s.marks| == |p.shots|
    ensures |s.labels| == if p.heatmapView == Heatmap then 0 else |p.heatmapData|
    ensures forall i :: 0 <= i < |s.labels| ==>
      s.labels[i].value == p.heatmapData[i].value && s.labels[i].at == LabelAnchor(p.heatmapView, i)
    ensures forall i :: 0 <= i < |s.overlays| ==>
      s.overlays[i].rect == RegionRects(p.heatmapView)[i]
      && (p.heatmapData[i].value as real) == (s.overlays[i].alpha - 0.2) * 200.0
    ensures forall i :: 0 <= i < |s.marks| ==>
      s.marks[i].key == KeyOf(p.shots[i]) && s.marks[i].marker == ShotMarker(p.shots[i])
      && s.marks[i].delay == RevealDelay(i, p.isFilterTransitioning)
      && s.marks[i].revealed == ShotRevealed(p.animatedShots, p.displayMode, p.isFilterTransitioning)
    ensures s.heatmapVisible <==> p.displayMode == PlayerPosition && !p.isTransitioning
    ensures s.shotsVisible <==> p.displayMode == BallHits && !p.isTransitioning
    ensures !(s.heatmapVisible && s.shotsVisible)
  {
    Scene(
      Overlays(p.heatmapView, p.heatmapData),
      Labels(p.heatmapView, p.heatmapData),
      ShownFor(PlayerPosition, p.displayMode, p.isTransitioning),
      ShotMarks(p.shots, p.animatedShots, p.displayMode, p.isFilterTransitioning),
      ShownFor(BallHits, p.displayMode, p.isTransitioning))
  }
}

=== FILE: decimal.dfy ===
/** Decimal rendering of non-negative integers, as JavaScript prints a whole
    number inside a template literal or a JSX text node, and its inverse. */
module Decimal {

  predicate IsDigit(c: char) {
    '0' <= c <= '9'
  }

  predicate AllDigits(s: string) {
    forall i :: 0 <= i < |s| ==> IsDigit(s[i])
  }

  function DigitChar(d: nat): (c: char)
    requires d < 10
    ensures IsDigit(c)
  {
    ('0' as int + d) as char
  }

  /** The decimal text of `n`: at least one digit and no leading zero. */
  function NatToString(n: nat): (s: string)
    ensures 1 <= |s|
    ensures AllDigits(s)
    ensures s[0] == '0' ==> n == 0
  {
    if n < 10 then [DigitChar(n)] else NatToString(n / 10) + [DigitChar(n % 10)]
  }

  /** The number a string of digits denotes. */
  function DigitsValue(s: string): nat
    requires AllDigits(s)
  {
    if |s| == 0 then 0
    else DigitsValue(s[..|s| - 1]) * 10 + (s[|s| - 1] as int - '0' as int)
  }

  /** Reading the printed number back gives the number. */
  lemma {:induction false} NatToStringRoundTrip(n: nat)
    ensures DigitsValue(NatToString(n)) == n
  {
    if n >= 10 {
      var s := NatToString(n);
      assert s[..|s| - 1] == NatToString(n / 10);
      NatToStringRoundTrip(n / 10);
    }
  }

  /** The longest prefix of `s` made of digits. */
  function DigitPrefix(s: string): (r: string)
    ensures r <= s && AllDigits(r)
    ensures |r| < |s| ==> !IsDigit(s[|r|])
  {
    if |s| == 0 || !IsDigit(s[0]) then [] else [s[0]] + DigitPrefix(s[1..])
  }

  /** A digit string followed by a non-digit, or by nothing, has exactly that
      string as its digit prefix. */
  lemma {:induction false} DigitPrefixOf(d: string, rest: string)
    requires AllDigits(d)
    requires |rest| == 0 || !IsDigit(rest[0])
    ensures DigitPrefix(d + rest) == d
  {
    if |d| > 0 {
      assert (d + rest)[0] == d[0];
      assert (d + rest)[1..] == d[1..] + rest;
      DigitPrefixOf(d[1..], rest);
    } else {
      assert d + rest == rest;
    }
  }

  /** The number a text starts with (0 when it starts with no digit). */
  function LeadingNumber(s: string): nat {
    DigitsValue(DigitPrefix(s))
  }

  /** A printed number followed by text that starts with a non-digit, or by
      nothing, reads back as that number. */
  lemma LeadingNumberOf(n: nat, rest: string)
    requires |rest| == 0 || !IsDigit(rest[0])
    ensures LeadingNumber(NatToString(n) + rest) == n
  {
    DigitPrefixOf(NatToString(n), rest);
    NatToStringRoundTrip(n);
  }
}

=== FILE: last_request.dfy ===
/** A corrected two-step transition in which the last request wins. The guard
    compares a click with the most recently requested value instead of the
    value the exit timer has not yet committed, the exit timer commits the
    latest request when it fires, and an enter timer ends the transition only
    once no exit timer is left. It works the same for the mode and for the
    filter, so it is generic in the value type. */
module LastRequest {
  import opened Types
  import opened Seqs

  /** A scheduled callback: exit (commit the target) or enter (end the
      transition). */
  datatype Phase = Exit | Enter

  /** `selected` and `displayed` play the roles of `mainMode` and
      `displayMode`; `target` is the latest requested value. */
  datatype Channel<T> = Channel(selected: T, displayed: T, target: T, transitioning: bool, pending: seq<Phase>)

  datatype Event<T> = Request(value: T) | Fire(index: nat)

  /** A click: ignored when it asks for the latest request again; otherwise it
      becomes the target and an exit timer is scheduled. */
  function HandleRequest<T(==)>(c: Channel<T>, v: T): (d: Channel<T>)
    ensures d.target == v
    ensures v == c.target ==> d == c
    ensures v != c.target ==>
      d.transitioning && d.selected == c.selected && d.displayed == c.displayed
      && d.pending == c.pending + [Exit]
    ensures multiset(c.pending) <= multiset(d.pending)
  {
    if v == c.target then c
    else c.(target := v, transitioning := true, pending := c.pending + [Exit])
  }

  /** Running the `k`-th pending timer. An exit commits the latest target; an
      enter ends the transition only when no later request still has its exit
      timer pending. */
  function FireTimer<T>(c: Channel<T>, k: nat): (d: Channel<T>)
    requires k < |c.pending|
    ensures d.target == c.target
    ensures multiset(d.pending) ==
      multiset(c.pending) - multiset{c.pending[k]} + (if c.pending[k] == Exit then multiset{Enter} else multiset{})
    ensures c.pending[k] == Exit ==> d.selected == d.displayed == c.target && d.transitioning == c.transitioning
    ensures c.pending[k] == Enter ==> d.selected == c.selected && d.displayed == c.displayed
    ensures c.pending[k] == Enter ==> (d.transitioning <==> Exit in d.pending)
  {
    var rest := RemoveAt(c.pending, k);
    match c.pending[k]
    case Exit => c.(selected := c.target, displayed := c.target, pending := rest + [Enter])
    case Enter => c.(transitioning := Exit in rest, pending := rest)
  }

  function Step<T(==)>(c: Channel<T>, e: Event<T>): Channel<T> {
    match e
    case Request(v) => HandleRequest(c, v)
    case Fire(k) => if k < |c.pending| then FireTimer(c, k) else c
  }

  function Run<T(==)>(c: Channel<T>, events: seq<Event<T>>): Channel<T>
    decreases |events|
  {
    if |events| == 0 then c else Run(Step(c, events[0]), events[1..])
  }

  /** The value of the last request in `events`, or `current` if there is none. */
  function LastRequested<T>(current: T, events: seq<Event<T>>): T
    decreases |events|
  {
    if |events| == 0 then current
    else LastRequested(if events[0].Request? then events[0].value else current, events[1..])
  }

  /** The invariant: the two shown values agree, and with no exit timer pending
      the shown value is the latest request. */
  predicate Follows<T(==)>(c: Channel<T>) {
    c.selected == c.displayed && (Exit !in c.pending ==> c.selected == c.target)
  }

  lemma StepFollows<T>(c: Channel<T>, e: Event<T>)
    requires Follows(c)
    ensures Follows(Step(c, e))
    ensures Step(c, e).target == if e.Request? then e.value else c.target
  {
    match e
    case Request(v) =>
    case Fire(k) =>
      if k < |c.pending| && c.pending[k] == Enter {
        var d := FireTimer(c, k);
        assert c.pending == c.pending[..k] + [Enter] + c.pending[k + 1..];
        assert Exit in c.pending ==> Exit in d.pending;
      }
  }

  /** After any run, the target is the last request, and once no timer is
      pending the value on screen is that last request. */
  lemma {:induction false} LastRequestWins<T>(c: Channel<T>, events: seq<Event<T>>)
    requires Follows(c)
    ensures Follows(Run(c, events))
    ensures Run(c, events).target == LastRequested(c.target, events)
    ensures |Run(c, events).pending| == 0 ==> Run(c, events).displayed == LastRequested(c.target, events)
    decreases |events|
  {
    if |events| > 0 {
      StepFollows(c, events[0]);
      LastRequestWins(Step(c, events[0]), events[1..]);
    }
  }

  /** The stronger invariant: besides `Follows`, an exit timer pending means a
      transition is running. */
  predicate Calm<T(==)>(c: Channel<T>) {
    Follows(c) && (Exit in c.pending ==> c.transitioning)
  }

  lemma StepCalm<T>(c: Channel<T>, e: Event<T>)
    requires Calm(c)
    ensures Calm(Step(c, e))
  {
    StepFollows(c, e);
    match e
    case Request(v) =>
    case Fire(k) =>
      if k < |c.pending| && c.pending[k] == Exit {
        assert Exit in c.pending;
      }
  }

  /** Whenever no transition is running, the value on screen is the last
      request: an earlier request's enter timer cannot end a later request's
      transition early. */
  lemma {:induction false} SettledShowsLatest<T>(c: Channel<T>, events: seq<Event<T>>)
    requires Calm(c)
    ensures Calm(Run(c, events))
    ensures !Run(c, events).transitioning ==> Run(c, events).displayed == LastRequested(c.target, events)
    decreases |events|
  {
    LastRequestWins(c, events);
    if |events| > 0 {
      StepCalm(c, events[0]);
      SettledShowsLatest(Step(c, events[0]), events[1..]);
    }
  }

  /** Timer events alone never change the last request. */
  lemma {:induction false} FiresKeepLastRequested<T>(current: T, fires: seq<Event<T>>)
    requires forall i :: 0 <= i < |fires| ==> fires[i].Fire?
    ensures LastRequested(current, fires) == current
    decreases |fires|
  {
    if |fires| > 0 {
      FiresKeepLastRequested(current, fires[1..]);
    }
  }

  /** The click sequence that defeats the original guard: from ball hits, a
      click on player position and then back on ball hits. Whatever order the
      timers then fire in, once none is pending ball hits is shown. */
  lemma ClickBackWins(fires: seq<Event<MainMode>>)
    requires forall i :: 0 <= i < |fires| ==> fires[i].Fire?
    ensures var c := Run(Channel(BallHits, BallHits, BallHits, false, []),
                         [Request(PlayerPosition), Request(BallHits)] + fires);
      |c.pending| == 0 ==> c.displayed == BallHits
  {
    var init := Channel(BallHits, BallHits, BallHits, false, []);
    var events := [Request(PlayerPosition), Request(BallHits)] + fires;
    LastRequestWins(init, events);
    assert events[1..] == [Request(BallHits)] + fires;
    assert events[1..][1..] == fires;
    FiresKeepLastRequested(BallHits, fires);
  }
}

=== FILE: legacy.dfy ===
/** The earlier single-file Ball Map: shots carry a team and a hit/bounce
    result, the filter combines type and result, the type buttons toggle, and
    markers depend on the team. */
module Legacy {
  import opened Types
  import opened Seqs
  import opened Svg
  import opened Decimal

  datatype Outcome = Hit | Bounce
  datatype Team = Yours | Opponent

  datatype LegacyShot = LegacyShot(x: real, y: real, kind: ShotType, result: Outcome, team: Team)

  /** The eight sample shots the component declares. */
  const SampleShots: seq<LegacyShot> := [
    LegacyShot(75.0, 35.0, Forehand, Hit, Yours),
    LegacyShot(80.0, 55.0, Backhand, Hit, Yours),
    LegacyShot(70.0, 75.0, Forehand, Hit, Yours),
    LegacyShot(25.0, 42.0, Forehand, Hit, Opponent),
    LegacyShot(20.0, 70.0, Backhand, Hit, Opponent),
    LegacyShot(30.0, 95.0, Serve, Hit, Opponent),
    LegacyShot(85.0, 50.0, Overhead, Hit, Yours),
    LegacyShot(90.0, 68.0, ForehandVolley, Bounce, Yours)
  ]

  function TypeMatches(selected: string): LegacyShot -> bool {
    (s: LegacyShot) => selected == AllShots || TypeId(s.kind) == selected
  }

  function ResultMatches(viewMode: Outcome): LegacyShot -> bool {
    (s: LegacyShot) => s.result == viewMode
  }

  function Matches(selected: string, viewMode: Outcome): LegacyShot -> bool {
    (s: LegacyShot) => (selected == AllShots || TypeId(s.kind) == selected) && s.result == viewMode
  }

  /** The shots drawn: those whose type passes the selection and whose result
      is the hit/bounce mode, in list order. */
  function FilteredShots(shots: seq<LegacyShot>, selected: string, viewMode: Outcome): (r: seq<LegacyShot>)
    ensures forall i :: 0 <= i < |r| ==>
      r[i] in shots && r[i].result == viewMode && (selected == AllShots || TypeId(r[i].kind) == selected)
    ensures forall i :: (0 <= i < |shots| && shots[i].result == viewMode
      && (selected == AllShots || TypeId(shots[i].kind) == selected)) ==> shots[i] in r
  {
    Keep(shots, Matches(selected, viewMode))
  }

  /** The combined filter is the type filter followed by the result filter
      (and the other way round), so order is preserved. */
  lemma FilterIsTypeThenResult(shots: seq<LegacyShot>, selected: string, viewMode: Outcome)
    ensures FilteredShots(shots, selected, viewMode)
      == Keep(Keep(shots, TypeMatches(selected)), ResultMatches(viewMode))
      == Keep(Keep(shots, ResultMatches(viewMode)), TypeMatches(selected))
  {
    KeepKeep(shots, TypeMatches(selected), ResultMatches(viewMode), Matches(selected, viewMode));
    KeepKeep(shots, ResultMatches(viewMode), TypeMatches(selected), Matches(selected, viewMode));
  }

  /** The first seven sample shots are hits and the eighth is a bounce. */
  lemma SampleOutcomes()
    ensures |SampleShots| == 8
    ensures forall i :: 0 <= i < 7 ==> SampleShots[i].result == Hit
    ensures SampleShots[7].result == Bounce
  {
  }

  /** The sample has seven hits: with every type selected, hit mode draws the
      first seven shots. */
  lemma SampleHitMode()
    ensures FilteredShots(SampleShots, AllShots, Hit) == SampleShots[..7]
  {
    var p := Matches(AllShots, Hit);
    var hits := SampleShots[..7];
    var last := SampleShots[7..];
    SampleOutcomes();
    assert SampleShots == hits + last;
    assert All(hits, p);
    assert All(last, (s: LegacyShot) => !p(s));
    KeepConcat(hits, last, p);
    KeepAll(hits, p);
    KeepNone(last, p);
  }

  /** In bounce mode with every type selected exactly the forehand volley at
      (90, 68) is drawn. */
  lemma SampleBounceMode()
    ensures FilteredShots(SampleShots, AllShots, Bounce) == [SampleShots[7]]
  {
    var q := Matches(AllShots, Bounce);
    var hits := SampleShots[..7];
    var last := SampleShots[7..];
    SampleOutcomes();
    assert SampleShots == hits + last;
    assert last == [SampleShots[7]];
    assert All(hits, (s: LegacyShot) => !q(s));
    KeepConcat(hits, last, q);
    KeepNone(hits, q);
  }

  /** A click on type button `id`: deselects to "all" when `id` is already
      selected, otherwise selects `id`. */
  function ToggleSelect(selected: string, id: string): (r: string)
    requires id != AllShots
    ensures r == AllShots <==> selected == id
    ensures r != AllShots ==> r == id
  {
    if selected == id then AllShots else id
  }

  /** Two clicks on the same button restore the selection exactly when it was
      "all" or that button's type. */
  lemma ToggleTwice(selected: string, id: string)
    requires id != AllShots
    ensures ToggleSelect(ToggleSelect(selected, id), id) == selected <==> selected == AllShots || selected == id
  {
  }

  /** The marker depends on the team only: a circle of radius 2 for your team,
      an X with arms of 2 for the opponents, either centred on the shot. */
  function TeamMarker(s: LegacyShot): (m: Marker)
    ensures m.Circle? <==> s.team == Yours
    ensures MarkerCenter(m) == Point(s.x, s.y)
    ensures MarkerReach(m) == 2.0
    ensures m.Cross? ==> m == CrossAt(Point(s.x, s.y), 2.0)
  {
    match s.team
    case Yours => Circle(Point(s.x, s.y), 2.0)
    case Opponent => CrossAt(Point(s.x, s.y), 2.0)
  }

  /** The scale-in delay of the `index`-th drawn shot, in ms: 50 ms apart. */
  function AnimationDelay(index: nat): (ms: nat)
    ensures ms % 50 == 0 && ms / 50 == index
  {
    index * 50
  }

  lemma AnimationDelayIncreasing(i: nat, j: nat)
    requires i < j
    ensures AnimationDelay(i) < AnimationDelay(j)
  {
  }

  /** A player's caption: "You" for the selected player, "P" and the id for the
      others, from which the id reads back. */
  function PlayerLabel(id: nat, selectedPlayer: nat): (r: string)
    ensures |r| > 0
    ensures r == "You" <==> id == selectedPlayer
    ensures id != selectedPlayer ==> r[0] == 'P' && LeadingNumber(r[1..]) == id
    ensures id != selectedPlayer ==> DigitPrefix(r[1..]) == NatToString(id) && |r| == 1 + |NatToString(id)|
  {
    if id == selectedPlayer then "You"
    else
      assert ("P" + NatToString(id))[1..] == NatToString(id) + [];
      LeadingNumberOf(id, []);
      DigitPrefixOf(NatToString(id), []);
      "P" + NatToString(id)
  }
}

=== FILE: legend.dfy ===
/** The legend under the court: the shot count line in ball-hits mode and the
    coverage caption in player-position mode. */
module Legend {
  import opened Types
  import opened Decimal
  import opened Utils

  const ShotsShown: string := " shots shown"
  const OnlySuffix: string := " only)"
  const CoveragePrefix: string := "Player "
  const CoverageSuffix: string := " Court Coverage"

  predicate EndsWith(s: string, suffix: string) {
    |suffix| <= |s| && s[|s| - |suffix|..] == suffix
  }

  /** "n shots shown", followed by " (type only)" when a single type is
      selected. The count reads back from the text, and the suffix appears
      exactly when the filter is not the catch-all. */
  function ShotCountText(count: nat, displayShot: string): (text: string)
    ensures LeadingNumber(text) == count && DigitPrefix(text) == NatToString(count)
    ensures |text| == |NatToString(count)| + |ShotsShown| + (if displayShot != AllShots then |displayShot| + 8 else 0)
    ensures text[|NatToString(count)|..|NatToString(count)| + |ShotsShown|] == ShotsShown
    ensures EndsWith(text, OnlySuffix) <==> displayShot != AllShots
    ensures displayShot != AllShots ==> EndsWith(text, " (" + displayShot + OnlySuffix)
  {
    var tail := if displayShot != AllShots then ShotsShown + (" (" + displayShot + OnlySuffix) else ShotsShown;
    CountTextTail(displayShot, tail);
    LeadingNumberOf(count, tail);
    DigitPrefixOf(NatToString(count), tail);
    var text := NatToString(count) + tail;
    assert text[|NatToString(count)|..] == tail;
    EndsWithAppend(NatToString(count), tail, OnlySuffix);
    EndsWithAppend(NatToString(count), tail, " (" + displayShot + OnlySuffix);
    text
  }

  /** A suffix no longer than `tail` ends `head + tail` exactly when it ends
      `tail`. */
  lemma EndsWithAppend(head: string, tail: string, suffix: string)
    requires |suffix| <= |tail|
    ensures EndsWith(head + tail, suffix) <==> EndsWith(tail, suffix)
  {
    assert (head + tail)[|head + tail| - |suffix|..] == tail[|tail| - |suffix|..];
  }

  /** The text after the count: it starts with " shots shown" and ends with the
      " (type only)" suffix exactly when a single type is selected. */
  lemma CountTextTail(displayShot: string, tail: string)
    requires tail == if displayShot != AllShots then ShotsShown + (" (" + displayShot + OnlySuffix) else ShotsShown
    ensures |tail| > 0 && !IsDigit(tail[0])
    ensures |tail| == |ShotsShown| + (if displayShot != AllShots then |displayShot| + 8 else 0)
    ensures tail[..|ShotsShown|] == ShotsShown
    ensures EndsWith(tail, OnlySuffix) <==> displayShot != AllShots
    ensures displayShot != AllShots ==> EndsWith(tail, " (" + displayShot + OnlySuffix)
  {
    if displayShot == AllShots {
      assert tail[|tail| - |OnlySuffix|..] == " shown";
    } else {
      var suffix := " (" + displayShot + OnlySuffix;
      assert tail[|tail| - |suffix|..] == suffix;
      assert suffix[|suffix| - |OnlySuffix|..] == OnlySuffix;
      assert tail[|tail| - |OnlySuffix|..] == OnlySuffix;
    }
  }

  /** The name of the heat-map layout: "9-zone", "3-column" or "2-row". Its
      number is the row count of the table the same view gets. */
  function ViewLabel(view: HeatmapView): (name: string)
    ensures LeadingNumber(name) == |HeatmapData(view)|
  {
    match view
    case Zones =>
      assert "9-zone" == NatToString(9) + "-zone";
      LeadingNumberOf(9, "-zone");
      "9-zone"
    case Sides =>
      assert "3-column" == NatToString(3) + "-column";
      LeadingNumberOf(3, "-column");
      "3-column"
    case _ =>
      assert "2-row" == NatToString(2) + "-row";
      LeadingNumberOf(2, "-row");
      "2-row"
  }

  /** The layout name is "9-zone", "3-column" or "2-row", and its number is the
      row count of the table the same view gets: 9, 3 or 2. */
  lemma ViewLabelCountsRows(view: HeatmapView)
    ensures LeadingNumber(ViewLabel(view)) == |HeatmapData(view)|
    ensures view != Zones && view != Sides ==> ViewLabel(view) == ViewLabel(FrontBack)
    ensures ViewLabel(view) == ViewLabel(FrontBack) <==> view != Zones && view != Sides
  {
  }

  /** "Player n Court Coverage": the player number reads back from the text
      between the fixed prefix and suffix. */
  function CoverageTitle(player: nat): (title: string)
    ensures |title| > |CoveragePrefix| && title[..|CoveragePrefix|] == CoveragePrefix
    ensures LeadingNumber(title[|CoveragePrefix|..]) == player
    ensures DigitPrefix(title[|CoveragePrefix|..]) == NatToString(player)
    ensures |title| == |CoveragePrefix| + |NatToString(player)| + |CoverageSuffix|
    ensures EndsWith(title, CoverageSuffix)
  {
    var title := CoveragePrefix + NatToString(player) + CoverageSuffix;
    assert title[|CoveragePrefix|..] == NatToString(player) + CoverageSuffix;
    LeadingNumberOf(player, CoverageSuffix);
    DigitPrefixOf(NatToString(player), CoverageSuffix);
    assert title[|title| - |CoverageSuffix|..] == CoverageSuffix;
    title
  }

  /** "<layout> heatmap analysis": its number is the table's row count. */
  function CoverageCaption(view: HeatmapView): (caption: string)
    ensures LeadingNumber(caption) == |HeatmapData(view)|
  {
    var caption := ViewLabel(view) + " heatmap analysis";
    assert caption == NatToString(|HeatmapData(view)|) + caption[1..];
    LeadingNumberOf(|HeatmapData(view)|, caption[1..]);
    caption
  }

  /** What the legend is given. */
  datatype LegendProps = LegendProps(
    displayMode: MainMode,
    isTransitioning: bool,
    filteredShots: seq<Shot>,
    displayShot: string,
    selectedPlayer: nat,
    heatmapView: HeatmapView)

  /** The two legend panels: their visibility and their text. */
  datatype LegendView = LegendView(
    ballHitsVisible: bool,
    countText: string,
    positionVisible: bool,
    coverageTitle: string,
    coverageCaption: string)

  /** The legend. The two panels are never both visible and both hide during a
      mode transition; the count line states how many shots the court got, and
      the caption states how many regions the table has. */
  function Render(p: LegendProps): (v: LegendView)
    ensures !(v.ballHitsVisible && v.positionVisible)
    ensures p.isTransitioning ==> !v.ballHitsVisible && !v.positionVisible
    ensures v.ballHitsVisible <==> p.displayMode == BallHits && !p.isTransitioning
    ensures v.positionVisible <==> p.displayMode == PlayerPosition && !p.isTransitioning
    ensures LeadingNumber(v.countText) == |p.filteredShots|
    ensures LeadingNumber(v.coverageCaption) == |HeatmapData(p.heatmapView)|
    ensures |v.coverageTitle| > |CoveragePrefix| && v.coverageTitle[..|CoveragePrefix|] == CoveragePrefix
    ensures LeadingNumber(v.coverageTitle[|CoveragePrefix|..]) == p.selectedPlayer
    ensures EndsWith(v.coverageTitle, CoverageSuffix)
    ensures v.countText == ShotCountText(|p.filteredShots|, p.displayShot)
    ensures v.coverageTitle == CoverageTitle(p.selectedPlayer)
    ensures v.coverageCaption == CoverageCaption(p.heatmapView)
  {
    LegendView(
      ShownFor(BallHits, p.displayMode, p.isTransitioning),
      ShotCountText(|p.filteredShots|, p.displayShot),
      ShownFor(PlayerPosition, p.displayMode, p.isTransitioning),
      CoverageTitle(p.selectedPlayer),
      CoverageCaption(p.heatmapView))
  }
}

=== FILE: seqs.dfy ===
/** Order-preserving filtering of sequences, the one list operation the Ball Map
    views use (JavaScript's `Array.prototype.filter`), with the facts the rest of
    the model relies on. */
module Seqs {

  /** The elements of `xs` that satisfy `p`, in their original order. */
  function Keep<T>(xs: seq<T>, p: T -> bool): (r: seq<T>)
    ensures |r| <= |xs|
    ensures forall i :: 0 <= i < |r| ==> r[i] in xs && p(r[i])
    ensures forall i :: 0 <= i < |xs| && p(xs[i]) ==> xs[i] in r
  {
    if |xs| == 0 then []
    else (if p(xs[0]) then [xs[0]] else []) + Keep(xs[1..], p)
  }

  /** Every element of `xs` satisfies `p`. */
  predicate All<T>(xs: seq<T>, p: T -> bool) {
    forall i :: 0 <= i < |xs| ==> p(xs[i])
  }

  /** Filtering distributes over concatenation: together with the one-element
      case this pins `Keep` down as the stable (order-preserving) filter. */
  lemma {:induction false} KeepConcat<T>(a: seq<T>, b: seq<T>, p: T -> bool)
    ensures Keep(a + b, p) == Keep(a, p) + Keep(b, p)
  {
    if |a| == 0 {
      assert a + b == b;
    } else {
      assert (a + b)[0] == a[0];
      assert (a + b)[1..] == a[1..] + b;
      KeepConcat(a[1..], b, p);
    }
  }

  /** Filtering keeps everything exactly when every element passes. */
  lemma {:induction false} KeepAll<T>(xs: seq<T>, p: T -> bool)
    ensures Keep(xs, p) == xs <==> All(xs, p)
  {
    if |xs| > 0 {
      KeepAll(xs[1..], p);
      if !p(xs[0]) {
        assert |Keep(xs, p)| < |xs|;
      }
    }
  }

  /** Filtering keeps nothing exactly when no element passes. */
  lemma {:induction false} KeepNone<T>(xs: seq<T>, p: T -> bool)
    ensures Keep(xs, p) == [] <==> All(xs, x => !p(x))
  {
    if |xs| > 0 {
      KeepNone(xs[1..], p);
      if p(xs[0]) {
        assert Keep(xs, p)[0] == xs[0];
      }
    }
  }

  /** Two filters in a row keep exactly what the conjoined filter keeps, in the
      same order. */
  lemma {:induction false} KeepKeep<T>(xs: seq<T>, p: T -> bool, q: T -> bool, both: T -> bool)
    requires forall x :: both(x) == (p(x) && q(x))
    ensures Keep(Keep(xs, p), q) == Keep(xs, both)
  {
    if |xs| > 0 {
      var head := if p(xs[0]) then [xs[0]] else [];
      KeepConcat(head, Keep(xs[1..], p), q);
      KeepKeep(xs[1..], p, q, both);
    }
  }

  /** `All` of a concatenation is `All` of both parts. */
  lemma AllConcat<T>(a: seq<T>, b: seq<T>, p: T -> bool)
    ensures All(a + b, p) <==> All(a, p) && All(b, p)
  {
    if All(a + b, p) {
      forall i | 0 <= i < |a| ensures p(a[i]) {
        assert a[i] == (a + b)[i];
      }
      forall i | 0 <= i < |b| ensures p(b[i]) {
        assert b[i] == (a + b)[|a| + i];
      }
    }
    if All(a, p) && All(b, p) {
      forall i | 0 <= i < |a + b| ensures p((a + b)[i]) {
        if i < |a| {
          assert (a + b)[i] == a[i];
        } else {
          assert (a + b)[i] == b[i - |a|];
        }
      }
    }
  }

  /** `xs` without its `k`-th element. */
  function RemoveAt<T>(xs: seq<T>, k: nat): (r: seq<T>)
    requires k < |xs|
    ensures |r| == |xs| - 1
    ensures multiset(r) == multiset(xs) - multiset{xs[k]}
  {
    assert xs == xs[..k] + [xs[k]] + xs[k + 1..];
    xs[..k] + xs[k + 1..]
  }
}

=== FILE: svg.dfy ===
/** Plane geometry of the court's SVG drawing: points, axis-aligned
    rectangles, line segments and the two marker shapes. */
module Svg {

  datatype Point = Point(x: real, y: real)

  /** An SVG `rect`: top-left corner (`x`, `y`) and extent; y grows downwards. */
  datatype Rect = Rect(x: real, y: real, width: real, height: real) {

    function Right(): real {
      x + width
    }

    function Bottom(): real {
      y + height
    }

    /** The closed rectangle holds `p`. */
    predicate Contains(p: Point) {
      x <= p.x <= Right() && y <= p.y <= Bottom()
    }

    /** The open rectangle holds `p`. */
    predicate StrictlyContains(p: Point) {
      x < p.x < Right() && y < p.y < Bottom()
    }

    /** `inner` lies inside this rectangle. */
    predicate Encloses(inner: Rect) {
      x <= inner.x && inner.Right() <= Right() && y <= inner.y && inner.Bottom() <= Bottom()
    }
  }

  /** The interiors of `a` and `b` meet, i.e. the two rectangles share area. */
  predicate Overlap(a: Rect, b: Rect) {
    a.x < b.Right() && b.x < a.Right() && a.y < b.Bottom() && b.y < a.Bottom()
  }

  /** Every point of `area` lies in at least one of `rects`. */
  ghost predicate Covers(rects: seq<Rect>, area: Rect) {
    forall p: Point :: area.Contains(p) ==> exists i :: 0 <= i < |rects| && rects[i].Contains(p)
  }

  datatype Segment = Segment(from: Point, to: Point)

  function Midpoint(s: Segment): Point {
    Point((s.from.x + s.to.x) / 2.0, (s.from.y + s.to.y) / 2.0)
  }

  /** A shot marker: an open circle, or an X drawn as two crossing strokes. */
  datatype Marker = Circle(center: Point, radius: real) | Cross(down: Segment, up: Segment)

  /** The X the source draws around `c`: one stroke from (c - arm, c - arm) to
      (c + arm, c + arm), one from (c - arm, c + arm) to (c + arm, c - arm). */
  function CrossAt(c: Point, arm: real): (m: Marker)
    requires arm > 0.0
    ensures m.Cross?
    ensures Midpoint(m.down) == c && Midpoint(m.up) == c
    ensures m.down.to.x - m.down.from.x == 2.0 * arm && m.down.to.y - m.down.from.y == 2.0 * arm
    ensures m.up.to.x - m.up.from.x == 2.0 * arm && m.up.to.y - m.up.from.y == -2.0 * arm
  {
    Cross(Segment(Point(c.x - arm, c.y - arm), Point(c.x + arm, c.y + arm)),
          Segment(Point(c.x - arm, c.y + arm), Point(c.x + arm, c.y - arm)))
  }

  /** Where a marker is centred. */
  function MarkerCenter(m: Marker): Point {
    match m
    case Circle(c, _) => c
    case Cross(down, _) => Midpoint(down)
  }

  /** How far a marker reaches from its centre along each axis. */
  function MarkerReach(m: Marker): real {
    match m
    case Circle(_, r) => r
    case Cross(down, _) => (down.to.x - down.from.x) / 2.0
  }
}

=== FILE: types.dfy ===
/** The Ball Map's data model: shots, their categories and outcomes, the two
    main modes and the heat-map views. */
module Types {

  /** The six shot categories, in the order the `Shot.type` union lists them. */
  datatype ShotType = Forehand | Backhand | ForehandVolley | BackhandVolley | Serve | Overhead

  datatype ShotResult = GroundBounce | Interception

  /** One recorded shot at court coordinates (`x`, `y`). */
  datatype Shot = Shot(x: real, y: real, kind: ShotType, result: ShotResult)

  /** What the court shows: the shot markers or the player-position heat map. */
  datatype MainMode = BallHits | PlayerPosition

  /** The heat-map region schemes. `Heatmap` is the extra value the position
      controls emit although the declared union does not list it. */
  datatype HeatmapView = Zones | Sides | FrontBack | Heatmap

  /** The filter value that keeps every shot type. */
  const AllShots: string := "all"

  const ShotTypeOrder: seq<ShotType> :=
    [Forehand, Backhand, ForehandVolley, BackhandVolley, Serve, Overhead]

  /** The string a shot type carries in the source, which is also its filter id. */
  function TypeId(t: ShotType): (id: string)
    ensures id != AllShots && |id| > 0
  {
    match t
    case Forehand => "forehand"
    case Backhand => "backhand"
    case ForehandVolley => "forehandVolley"
    case BackhandVolley => "backhandVolley"
    case Serve => "serve"
    case Overhead => "overhead"
  }

  /** The id names the type: recovering the type from its id. */
  function TypeOfId(id: string): (t: ShotType)
    requires exists u :: TypeId(u) == id
    ensures TypeId(t) == id
  {
    if id == "forehand" then Forehand
    else if id == "backhand" then Backhand
    else if id == "forehandVolley" then ForehandVolley
    else if id == "backhandVolley" then BackhandVolley
    else if id == "serve" then Serve
    else Overhead
  }

  /** Distinct types have distinct ids, so comparing ids compares types. */
  lemma TypeIdInjective(t: ShotType, u: ShotType)
    ensures TypeId(t) == TypeId(u) <==> t == u
  {
    if TypeId(t) == TypeId(u) {
      assert TypeOfId(TypeId(t)) == t;
    }
  }

  /** `ShotTypeOrder` lists every type exactly once. */
  lemma ShotTypeOrderComplete(t: ShotType)
    ensures t in ShotTypeOrder
    ensures forall i, j :: 0 <= i < j < |ShotTypeOrder| ==> ShotTypeOrder[i] != ShotTypeOrder[j]
  {
  }

  /** A layer, panel or legend that belongs to mode `owner` is shown exactly when
      the displayed mode is `owner` and no mode transition is running. */
  predicate ShownFor(owner: MainMode, displayMode: MainMode, isTransitioning: bool) {
    displayMode == owner && !isTransitioning
  }

  /** At most one mode's widgets are shown, and none during a mode transition. */
  lemma ShownForExclusive(displayMode: MainMode, isTransitioning: bool)
    ensures !(ShownFor(BallHits, displayMode, isTransitioning) && ShownFor(PlayerPosition, displayMode, isTransitioning))
    ensures isTransitioning ==> !ShownFor(BallHits, displayMode, isTransitioning) && !ShownFor(PlayerPosition, displayMode, isTransitioning)
    ensures !isTransitioning ==> ShownFor(displayMode, displayMode, isTransitioning)
  {
  }
}

=== FILE: utils.dfy ===
/** The heat-map table for each view and the value-to-opacity mapping of the
    overlays (the `getHeatmapData` and `getOverlayColor` helpers). */
module Utils {
  import opened Types

  /** One heat-map region and its percentage. */
  datatype HeatmapRow = HeatmapRow(region: string, value: int)

  /** Names of the zone rows from the net backwards, and of the columns. */
  const ZoneRowNames: seq<string> := ["net", "transition", "back"]
  const ZoneColumnNames: seq<string> := ["left", "middle", "right"]

  /** The table for `view`: 9 zones in row-major order for `Zones`, 3 columns
      for `Sides`, and the 2-row front/back table for every other view,
      including the undeclared `Heatmap`. Every value is a percentage. */
  function HeatmapData(view: HeatmapView): (rows: seq<HeatmapRow>)
    ensures view == Zones ==> |rows| == 9
    ensures view == Sides ==> |rows| == 3
    ensures view != Zones && view != Sides ==> |rows| == 2
    ensures forall i :: 0 <= i < |rows| ==> 0 <= rows[i].value <= 100
  {
    if view == Zones then
      [ HeatmapRow("net_left", 15), HeatmapRow("net_middle", 25), HeatmapRow("net_right", 10),
        HeatmapRow("transition_left", 20), HeatmapRow("transition_middle", 35), HeatmapRow("transition_right", 15),
        HeatmapRow("back_left", 30), HeatmapRow("back_middle", 40), HeatmapRow("back_right", 25) ]
    else if view == Sides then
      [ HeatmapRow("left", 35), HeatmapRow("middle", 45), HeatmapRow("right", 20) ]
    else
      [ HeatmapRow("front", 35), HeatmapRow("back", 65) ]
  }

  /** The zone table is row-major: row `i` names the zone in row `i / 3` (net,
      transition, back) and column `i % 3` (left, middle, right); the column
      table names the columns left to right. */
  lemma RegionNames()
    ensures forall i :: 0 <= i < 9 ==>
      HeatmapData(Zones)[i].region == ZoneRowNames[i / 3] + "_" + ZoneColumnNames[i % 3]
    ensures forall i :: 0 <= i < 3 ==> HeatmapData(Sides)[i].region == ZoneColumnNames[i]
  {
    ZoneRowNamed(0, "net");
    ZoneRowNamed(1, "transition");
    ZoneRowNamed(2, "back");
  }

  lemma ZoneRowNamed(row: nat, name: string)
    requires row < 3 && name == ZoneRowNames[row]
    ensures forall i :: 3 * row <= i < 3 * row + 3 ==>
      HeatmapData(Zones)[i].region == ZoneRowNames[i / 3] + "_" + ZoneColumnNames[i % 3]
  {
    var z := HeatmapData(Zones);
    assert z[3 * row].region == name + "_" + "left";
    assert z[3 * row + 1].region == name + "_" + "middle";
    assert z[3 * row + 2].region == name + "_" + "right";
  }

  /** The values of a table, in order. */
  function Values(rows: seq<HeatmapRow>): (vs: seq<int>)
    ensures |vs| == |rows|
    ensures forall i :: 0 <= i < |rows| ==> vs[i] == rows[i].value
  {
    if |rows| == 0 then [] else [rows[0].value] + Values(rows[1..])
  }

  function Sum(vs: seq<int>): int {
    if |vs| == 0 then 0 else vs[0] + Sum(vs[1..])
  }

  /** The zone values row by row. They are independent percentages: they sum
      to 215, not to 100. */
  lemma ZoneTotals()
    ensures Values(HeatmapData(Zones)) == [15, 25, 10, 20, 35, 15, 30, 40, 25]
    ensures Sum(Values(HeatmapData(Zones))) == 215
  {
    var z := HeatmapData(Zones);
    var expected := [15, 25, 10, 20, 35, 15, 30, 40, 25];
    assert forall i :: 0 <= i < 9 ==> z[i].value == expected[i];
    assert Values(z) == expected;
    assert Sum([15, 25, 10, 20, 35, 15, 30, 40, 25]) == 215;
  }

  /** The column values 35/45/20 and the front/back values 35/65 each share out
      a whole: both tables sum to 100. */
  lemma SideAndFrontBackTotals()
    ensures Values(HeatmapData(Sides)) == [35, 45, 20]
    ensures Sum(Values(HeatmapData(Sides))) == 100
    ensures Values(HeatmapData(FrontBack)) == [35, 65]
    ensures Sum(Values(HeatmapData(FrontBack))) == 100
  {
    assert Values(HeatmapData(Sides)) == [35, 45, 20];
    assert Sum([35, 45, 20]) == 100;
    assert Values(HeatmapData(FrontBack)) == [35, 65];
    assert Sum([35, 65]) == 100;
  }

  /** A view outside the three drawn schemes gets the front/back table. */
  lemma OtherViewsFallThrough(view: HeatmapView)
    requires view != Zones && view != Sides
    ensures HeatmapData(view) == HeatmapData(FrontBack)
  {
  }

  /** The alpha channel of the overlay fill for a percentage: 0.2 at 0 %,
      rising linearly to 0.7 at 100 %; the percentage can be read back from it. */
  function OverlayAlpha(percentage: real): (alpha: real)
    ensures 0.0 <= percentage <= 100.0 ==> 0.2 <= alpha <= 0.7
    ensures percentage == (alpha - 0.2) * 200.0
  {
    0.2 + (percentage / 100.0) * 0.5
  }

  /** A higher percentage never gives a lighter overlay, and a strictly higher
      one gives a strictly darker overlay. */
  lemma OverlayAlphaMonotone(p: real, q: real)
    ensures p <= q <==> OverlayAlpha(p) <= OverlayAlpha(q)
    ensures p < q <==> OverlayAlpha(p) < OverlayAlpha(q)
  {
  }
}
